=== FILE: README.md ===
# BluegigaDevice, modelled in Dafny

`BluegigaDevice` is the per-peripheral object of the Bluegiga transport of
the Bluetooth Manager. It sits on top of a shared `BluegigaHandler`, which
drives a BGAPI USB dongle. The device does five things:

- It decodes the advertisements the dongle hears: the EIR/AD structures of
  section 11 of the Bluetooth Core Specification, Vol 3, Part C.
- It connects to the peripheral and discovers services, characteristics and
  characteristic declarations. Declarations follow section 3.3.1 of Vol 3,
  Part G.
- It reports whether it is connected and how strong the signal is.
- It reacts to disconnect events pushed by the dongle.
- It notifies subscribers of the connected, services-resolved and RSSI
  channels.

The behaviour modelled is the one exercised by `BluegigaDeviceTest.java`.
The implementation class is not part of this model. Every statement below is
about the model. Where the test pins the behaviour, the test lines are
cited; where it does not, the choice is listed below as the model's own.

The model is functional. A device is an immutable `Device` value.

- Operations are pure functions of the device and their inputs: the
  handler's `Replies`, a pushed `Event`, a channel and subscriber, or an
  alias. Each returns what it changes and what it did. Operations that talk
  to the handler or notify subscribers also return a *trace*: the sequence
  of phases entered, handler calls made, notifications delivered and
  subscriber faults swallowed.
- Ordering claims ("isDiscovering, then connect, then …") are stated on the
  trace's per-kind views.
- Time is an integer `now` passed in.

| file | module | what it holds |
|---|---|---|
| `wrappers.dfy` | `Wrappers` | `Option` and `Reply`; a `Failed` reply stands for a handler call that raised |
| `bytes.dfy` | `Bytes` | octet, signed-octet and 16-bit casts; little-endian fields and their round trip |
| `advertisement.dfy` | `Advertisement` | the AD structure parser and writer with their round trip; decoding of flags, local name, class of device and Tx power level |
| `gatt.dfy` | `Gatt` | characteristic property bits ↔ access flags; declaration values ↔ declarations; the GATT model builder and its reference definition |
| `handler.dfy` | `Handler` | the boundary to the dongle: address types, events, calls, replies |
| `trace.dfy` | `Trace` | trace steps and their views by kind |
| `device.dfy` | `BluegigaDevice` | device state and operations: connect, disconnect, isConnected, RSSI, events, notification channels, alias |
| `lifecycle.dfy` | `Lifecycle` | properties across operations: connect ordering, announcements, disconnect events, address type history, fault isolation |
| `fixtures.dfy` | `Fixtures` | the test's concrete scenarios, proved on the model |

The test leaves some behaviour open or pins it only by example. These are
the model's choices, each with the test lines it rests on:

- **Address type.** Every scan response from the device that reports a
  public or random address type overwrites the held one: public, then random,
  gives random (test lines 227-238). A report that carries no address type,
  or one the dongle could not classify, leaves the held type as it is. The
  test's default scan response carries none (lines 486-503). It sends one to
  a new device at line 395, then connects at line 398 with only the
  unknown-type connect stubbed (line 97), and expects a connection at line
  399. So the type stays unknown there, as the model keeps it. Whether such a
  report also resets a known type is not exercised. Keeping it is the
  model's choice, and it is why the type never falls back to unknown once
  known.
- **Disconnect event from the local host.** A disconnect event for the held
  handle with reason "terminated by local host" does release the handle:
  `isConnected` is false afterwards (line 410). It announces nothing.
- **Matching declarations.** A declaration is matched by the service whose
  handle range holds its attribute handle, then by UUID inside that service.
  Matching on the exact value handle would not give the battery level its
  flags: the declaration sits at handle 4 and names value handle 3, while the
  characteristic entry is at handle 2 (lines 64, 106, 116).
- **Discarded entries.** Client characteristic configuration descriptors
  (0x2902) are discarded like primary service declarations (0x2800) (lines
  107, 445-449).
- **AD structure length.** The length octet counts the type octet plus the
  data, so `L` octets follow it (line 62). A zero length ends the payload.
- **Flags stay seen.** BLE counts as enabled once any advertisement carried
  a flags structure. A later advertisement without one does not clear it.
  The test only goes from no flags to flags (lines 249-257).
- **Missing fields are kept.** Name, class of device and Tx power keep their
  last value when an advertisement does not carry them. The test only
  sends payloads that carry the field it then reads (lines 212-225, 422-428).
- **Class of device.** Class of device is read as the first data octet, as
  the test's one-octet payload gives 10 (lines 213-217). Longer class
  fields are not exercised.
- **Entries outside every service.** A find-information entry whose handle
  lies in no service's range is dropped. Every entry of the test's fixture
  falls in a range (lines 99-111), so this is not exercised.
- **Events for other devices.** Every event the test sends concerns its own
  device (lines 387-420, 498-504). A scan response from another device, a
  disconnect of another handle (lines 401-405) and any other event are
  ignored: nothing changes and nothing is delivered.
- **Failed connect.** The test only exercises connects that succeed. In the
  model a connect stops at the first handler call that raises and leaves no
  connection.

## Model

| member | source | states |
|---|---|---|
| Bytes.SignedByte | src/test/java/org/sputnikdev/bluetooth/manager/transport/bluegiga/BluegigaDeviceTest.java:422-428 | an octet reads back as a value in -128..127; signed octets such as -60 are kept, and 128..255 wrap to negative values |
| Bytes.Int16 | src/test/java/org/sputnikdev/bluetooth/manager/transport/bluegiga/BluegigaDeviceTest.java:289-304 | the RSSI reading is a 16-bit signed value; values already in range, such as -87, are kept |
| Bytes.LittleEndianRoundTrip | src/test/java/org/sputnikdev/bluetooth/manager/transport/bluegiga/BluegigaDeviceTest.java:63-64 | reading back the little-endian octets of a number that fits gives the number |
| Bytes.LittleEndianInverse | src/test/java/org/sputnikdev/bluetooth/manager/transport/bluegiga/BluegigaDeviceTest.java:63-64 | every octet string is the little-endian encoding of the number it reads as |
| Advertisement.ParseEncoded | src/test/java/org/sputnikdev/bluetooth/manager/transport/bluegiga/BluegigaDeviceTest.java:62 | parsing the written form of well-formed structures followed by anything yields those structures first, then what the rest parses to |
| Advertisement.EncodeThenParse | src/test/java/org/sputnikdev/bluetooth/manager/transport/bluegiga/BluegigaDeviceTest.java:62 | parsing the written form of well-formed structures gives them back |
| Advertisement.ParseWellFormed | src/test/java/org/sputnikdev/bluetooth/manager/transport/bluegiga/BluegigaDeviceTest.java:62 | whatever the payload, every parsed structure has an octet type and fewer than 255 data octets |
| Advertisement.ParseReadsPrefix | src/test/java/org/sputnikdev/bluetooth/manager/transport/bluegiga/BluegigaDeviceTest.java:62 | writing back what was parsed from an octet payload gives a prefix of that payload: nothing is invented or reordered |
| Advertisement.AbsorbChangesOneField | src/test/java/org/sputnikdev/bluetooth/manager/transport/bluegiga/BluegigaDeviceTest.java:212-258 | one structure changes exactly the field it carries and keeps the others |
| Advertisement.LastReadingWins | src/test/java/org/sputnikdev/bluetooth/manager/transport/bluegiga/BluegigaDeviceTest.java:212-258 | a decoded field is present exactly when some structure carries it, and then holds the reading of the last structure that does |
| Gatt.PropertyBits | src/test/java/org/sputnikdev/bluetooth/manager/transport/bluegiga/BluegigaDeviceTest.java:63-64 | an access type is among a properties octet's flags exactly when the octet's bit at its position is set: broadcast 0x01, read 0x02, write without response 0x04, write 0x08, notify 0x10, indicate 0x20, signed writes 0x40, extended properties 0x80 |
| Gatt.PropertiesRoundTrip | src/test/java/org/sputnikdev/bluetooth/manager/transport/bluegiga/BluegigaDeviceTest.java:63-64 | every properties octet is the encoding of the access flags it decodes to |
| Gatt.FlagsRoundTrip | src/test/java/org/sputnikdev/bluetooth/manager/transport/bluegiga/BluegigaDeviceTest.java:452-461 | every set of access flags encodes to one octet and decodes back to the same set |
| Gatt.ParseDeclaration | src/test/java/org/sputnikdev/bluetooth/manager/transport/bluegiga/BluegigaDeviceTest.java:63-64 | a value is a declaration exactly when a 2- or 16-octet UUID follows the properties octet and the value handle; the fields then fit their octets |
| Gatt.DeclarationRoundTrip | src/test/java/org/sputnikdev/bluetooth/manager/transport/bluegiga/BluegigaDeviceTest.java:63-64 | a declaration whose fields fit survives writing and reading back |
| Gatt.DeclarationValueRoundTrip | src/test/java/org/sputnikdev/bluetooth/manager/transport/bluegiga/BluegigaDeviceTest.java:63-64 | every octet declaration value is the written form of what it reads as |
| Gatt.ServiceIndexFor | src/test/java/org/sputnikdev/bluetooth/manager/transport/bluegiga/BluegigaDeviceTest.java:99-111 | the service found for a handle is the first whose range holds it; none is found exactly when no range holds it |
| Gatt.UniqueCover | src/test/java/org/sputnikdev/bluetooth/manager/transport/bluegiga/BluegigaDeviceTest.java:99-111 | with non-overlapping ranges, the service found is the one service holding the handle |
| Gatt.Attach | src/test/java/org/sputnikdev/bluetooth/manager/transport/bluegiga/BluegigaDeviceTest.java:104-113 | characteristic discovery keeps the services, their order and their ranges |
| Gatt.AssignedTo | src/test/java/org/sputnikdev/bluetooth/manager/transport/bluegiga/BluegigaDeviceTest.java:104-113 | the reference list of a service's characteristics holds no 0x2800 or 0x2902 entry, only handles in its range, and no flags |
| Gatt.AttachAssigns | src/test/java/org/sputnikdev/bluetooth/manager/transport/bluegiga/BluegigaDeviceTest.java:441-450 | after discovery each service holds exactly the reference list of its characteristics, in arrival order |
| Gatt.DeclaredFlagsPresent | src/test/java/org/sputnikdev/bluetooth/manager/transport/bluegiga/BluegigaDeviceTest.java:115-117 | a declaration falls to the first service whose range holds its attribute handle; a characteristic type has declared flags in a service exactly when some declaration of that type falls to it |
| Gatt.LastDeclarationWins | src/test/java/org/sputnikdev/bluetooth/manager/transport/bluegiga/BluegigaDeviceTest.java:115-117 | when several declarations of a type fall to a service, the declared flags are those of the last one |
| Gatt.ApplyDeclarations | src/test/java/org/sputnikdev/bluetooth/manager/transport/bluegiga/BluegigaDeviceTest.java:115-117 | declarations change only access flags; every characteristic takes the flags of the last matching declaration and keeps its own when none matches; every flag set comes from a declaration of that UUID inside the service's range |
| Gatt.BuildPlacesCharacteristics | src/test/java/org/sputnikdev/bluetooth/manager/transport/bluegiga/BluegigaDeviceTest.java:430-461 | the built model has one service per group with its range, exactly the expected characteristics in each, and on each characteristic exactly the flags of the last matching declaration, or none |
| Handler.AddressTypeOf | src/test/java/org/sputnikdev/bluetooth/manager/transport/bluegiga/BluegigaDeviceTest.java:227-238 | a public report stands for a public address, a random one for a random address, and an unclassified one for an unknown address, each in both directions |
| BluegigaDevice.Deliver | src/test/java/org/sputnikdev/bluetooth/manager/transport/bluegiga/BluegigaDeviceTest.java:289-304 | a subscribed channel gets the value even when its subscriber raises; an unsubscribed one gets nothing; no handler call is made |
| BluegigaDevice.Announce | src/test/java/org/sputnikdev/bluetooth/manager/transport/bluegiga/BluegigaDeviceTest.java:326-366 | connected, then services-resolved, each delivered when subscribed, with a raising first subscriber not stopping the second |
| BluegigaDevice.Connect | src/test/java/org/sputnikdev/bluetooth/manager/transport/bluegiga/BluegigaDeviceTest.java:142-164 | connect succeeds exactly when every reply arrives; then the handle is the connect reply's, services are resolved and built from the three replies; on failure no connection is held; identity is kept |
| BluegigaDevice.Disconnect | src/test/java/org/sputnikdev/bluetooth/manager/transport/bluegiga/BluegigaDeviceTest.java:306-324 | with no handle nothing happens; otherwise the connection is released whatever the reply, and the result is the handler's acknowledgement |
| BluegigaDevice.Receive | src/test/java/org/sputnikdev/bluetooth/manager/transport/bluegiga/BluegigaDeviceTest.java:387-420 | events never change the URL, alias or subscriptions, never call the handler, and keep the invariant that a GATT model exists only while connected |
| BluegigaDevice.Enable | src/test/java/org/sputnikdev/bluetooth/manager/transport/bluegiga/BluegigaDeviceTest.java:289-304 | enabling a channel subscribes to it only, leaving the other channels and the rest of the device unchanged |
| BluegigaDevice.Disable | src/test/java/org/sputnikdev/bluetooth/manager/transport/bluegiga/BluegigaDeviceTest.java:326-346 | disabling a channel removes its subscriber only, leaving the other channels and the rest of the device unchanged |
| BluegigaDevice.SetAlias | src/test/java/org/sputnikdev/bluetooth/manager/transport/bluegiga/BluegigaDeviceTest.java:240-247 | the alias is set and nothing else changes |
| Lifecycle.ConnectOrder | src/test/java/org/sputnikdev/bluetooth/manager/transport/bluegiga/BluegigaDeviceTest.java:130-140 | a successful connect enters exactly establish, discover services, discover characteristics, discover declarations in order; its calls are exactly `ConnectCalls`, with the stop/start workaround only when discovering (lines 188-210); it announces true to subscribers |
| Lifecycle.ConnectStopsAtFailure | src/test/java/org/sputnikdev/bluetooth/manager/transport/bluegiga/BluegigaDeviceTest.java:130-140 | a failed connect enters only the phases up to the failing one, makes only their calls, and announces nothing |
| Lifecycle.ConnectStartsByConnecting | src/test/java/org/sputnikdev/bluetooth/manager/transport/bluegiga/BluegigaDeviceTest.java:166-186 | every connect first asks whether the dongle discovers, then connects with the address type the device holds |
| Lifecycle.ConnectedAfterConnect | src/test/java/org/sputnikdev/bluetooth/manager/transport/bluegiga/BluegigaDeviceTest.java:306-316 | after a successful connect the handle is the reply's, and the device is connected exactly while the status names its own address |
| Lifecycle.NotConnectedWithoutHandle | src/test/java/org/sputnikdev/bluetooth/manager/transport/bluegiga/BluegigaDeviceTest.java:306-324 | not connected before any connect, after a failed connect or after a disconnect, without handler calls when no handle is held |
| Lifecycle.DisconnectAnnounces | src/test/java/org/sputnikdev/bluetooth/manager/transport/bluegiga/BluegigaDeviceTest.java:326-346 | disconnecting a connected device makes one disconnect call for its handle and announces false to subscribers; the result is the acknowledgement |
| Lifecycle.DisconnectEventOtherHandle | src/test/java/org/sputnikdev/bluetooth/manager/transport/bluegiga/BluegigaDeviceTest.java:401-405 | a disconnect event for another handle changes nothing and delivers nothing |
| Lifecycle.DisconnectEventOwnHandle | src/test/java/org/sputnikdev/bluetooth/manager/transport/bluegiga/BluegigaDeviceTest.java:407-419 | a disconnect event for the held handle ends the connection; it announces false unless the local host ended it; URL, alias, subscriptions, advertised state and address type are kept |
| Lifecycle.IgnoredEvents | src/test/java/org/sputnikdev/bluetooth/manager/transport/bluegiga/BluegigaDeviceTest.java:387-420 | an event that is neither a scan response from the device nor a disconnect of its handle leaves the device unchanged and delivers nothing; in particular any other event and a scan response from another sender |
| Lifecycle.RssiWhileDisconnected | src/test/java/org/sputnikdev/bluetooth/manager/transport/bluegiga/BluegigaDeviceTest.java:271-281 | without a connection, RSSI is zero before any advertisement, the advertised value within the timeout and zero after, with no handler call |
| Lifecycle.RssiWhileConnected | src/test/java/org/sputnikdev/bluetooth/manager/transport/bluegiga/BluegigaDeviceTest.java:283-286 | while connected, RSSI is the handler's value, after a status call and an RSSI call |
| Lifecycle.ScanResponseNotifies | src/test/java/org/sputnikdev/bluetooth/manager/transport/bluegiga/BluegigaDeviceTest.java:289-304 | for every payload, a scan response from the device notifies its 16-bit signal strength to the signal strength subscriber, if any, and keeps the connection, GATT model and alias |
| Lifecycle.ScanResponseTeaches | src/test/java/org/sputnikdev/bluetooth/manager/transport/bluegiga/BluegigaDeviceTest.java:212-258 | for every payload: name, class and Tx power each take the reading of the last structure carrying them and are kept when none does; BLE is enabled once any flags structure was seen; the reported RSSI is recorded as fresh |
| Lifecycle.ReceiveAddressType | src/test/java/org/sputnikdev/bluetooth/manager/transport/bluegiga/BluegigaDeviceTest.java:227-238 | only a scan response from this device that reports a public or random address type changes the held type, and to that type |
| Lifecycle.AddressTypeFollowsLatest | src/test/java/org/sputnikdev/bluetooth/manager/transport/bluegiga/BluegigaDeviceTest.java:227-238 | after any run of events the address type is that of the latest public or random report, is unchanged when there is none, and never reverts to unknown |
| Lifecycle.ValidPreserved | src/test/java/org/sputnikdev/bluetooth/manager/transport/bluegiga/BluegigaDeviceTest.java:142-164 | connect, disconnect and events keep a GATT model only while a handle is held |
| Lifecycle.ConnectSilentWithoutSubscriber | src/test/java/org/sputnikdev/bluetooth/manager/transport/bluegiga/BluegigaDeviceTest.java:336-345 | connect delivers nothing on a channel without a subscriber |
| Lifecycle.DisconnectSilentWithoutSubscriber | src/test/java/org/sputnikdev/bluetooth/manager/transport/bluegiga/BluegigaDeviceTest.java:336-345 | disconnect delivers nothing on a channel without a subscriber |
| Lifecycle.ReceiveSilentWithoutSubscriber | src/test/java/org/sputnikdev/bluetooth/manager/transport/bluegiga/BluegigaDeviceTest.java:300-303 | no event delivers anything on a channel without a subscriber |
| Lifecycle.FaultIsolation | src/test/java/org/sputnikdev/bluetooth/manager/transport/bluegiga/BluegigaDeviceTest.java:326-366 | a raising subscriber changes neither the result, the state, the calls nor the notifications of connect and disconnect |
| Lifecycle.AliasIsLocal | src/test/java/org/sputnikdev/bluetooth/manager/transport/bluegiga/BluegigaDeviceTest.java:240-247 | the alias reads back and changes neither the connection check nor the RSSI |
| Fixtures.SmartlockAdvertisement | src/test/java/org/sputnikdev/bluetooth/manager/transport/bluegiga/BluegigaDeviceTest.java:62 | the Smartlock payload decodes to flags present and the name "Smartlock", with no class or Tx power |
| Fixtures.AdvertisementsWithoutFlags | src/test/java/org/sputnikdev/bluetooth/manager/transport/bluegiga/BluegigaDeviceTest.java:250-254 | the same name without a flags structure leaves BLE not enabled |
| Fixtures.ClassAndTxPower | src/test/java/org/sputnikdev/bluetooth/manager/transport/bluegiga/BluegigaDeviceTest.java:212-218 | the class payload gives class 10, and the Tx power payload gives -60 (lines 422-428) |
| Fixtures.Defaults | src/test/java/org/sputnikdev/bluetooth/manager/transport/bluegiga/BluegigaDeviceTest.java:212-225 | a new device is named by its address, with class, Tx power and RSSI zero, unknown address type and no alias |
| Fixtures.ScanResponseObserved | src/test/java/org/sputnikdev/bluetooth/manager/transport/bluegiga/BluegigaDeviceTest.java:269-279 | after the Smartlock response the name is "Smartlock", BLE is enabled, RSSI is -88 and zero once the timeout has passed |
| Fixtures.GattFixture | src/test/java/org/sputnikdev/bluetooth/manager/transport/bluegiga/BluegigaDeviceTest.java:99-117 | the fixture database builds to the battery service with battery level {read, notify} and the Tx power service with Tx power level without flags |
| Fixtures.ConnectFixture | src/test/java/org/sputnikdev/bluetooth/manager/transport/bluegiga/BluegigaDeviceTest.java:142-164 | connect succeeds on handle 1, calling isDiscovering, connect with unknown address type, then services, characteristics, declarations |
| Fixtures.ConnectStopsDiscovery | src/test/java/org/sputnikdev/bluetooth/manager/transport/bluegiga/BluegigaDeviceTest.java:188-210 | while discovering, stop procedure and start scanning come right after connect and before discovery |
| Fixtures.HandleReused | src/test/java/org/sputnikdev/bluetooth/manager/transport/bluegiga/BluegigaDeviceTest.java:306-324 | connected after connect, not connected once the status names "wrong address", disconnect still succeeds and leaves it disconnected |
| Fixtures.DisconnectEvents | src/test/java/org/sputnikdev/bluetooth/manager/transport/bluegiga/BluegigaDeviceTest.java:387-420 | another handle is ignored; the local host's disconnect drops the connection silently; a timeout announces false on both channels |
| Fixtures.AddressTypes | src/test/java/org/sputnikdev/bluetooth/manager/transport/bluegiga/BluegigaDeviceTest.java:166-186 | a public report makes the type public and connect uses it; a later random report makes it random |
| Fixtures.RssiNotifications | src/test/java/org/sputnikdev/bluetooth/manager/transport/bluegiga/BluegigaDeviceTest.java:289-304 | with the Smartlock payload, a raising RSSI subscriber gets -87 and then -77, each fault swallowed; after disabling, -66 delivers nothing |
| Fixtures.UnreportedAddressType | src/test/java/org/sputnikdev/bluetooth/manager/transport/bluegiga/BluegigaDeviceTest.java:387-399 | a scan response without an address type leaves a new device's type unknown, so connect asks for the unknown type that line 97 stubs |

## Left out

- The handler itself: the serial transport, BGAPI command encoding and event registration (`addEventListener`). The handler's answers are a `Replies` value and its pushed events an `Event` value.
- `runInSynchronizedContext`, the mutual exclusion over the shared dongle. Operations run one after another.
- The wall clock (`Instant.now()`). Time is an integer `now` parameter. The value of `DISCOVERY_TIMEOUT` is not visible in the test; the model fixes it at 10 and treats a reading as fresh while no more than that many seconds have passed.
- URL and UUID formatting (`copyWithService`, `UUID.fromString`). Device addresses are strings and UUIDs are numbers. 16-bit and 128-bit forms of the same UUID are not identified with each other.
- Keying services and characteristics by URL in maps: the model keeps them in arrival order, so two entries with the same UUID are both kept.
- Latin-1 / UTF-8 text decoding of local names: one character per octet.
- The blocked flag: blocking is not supported, so `isBlocked` stays false and its notifications do nothing (test lines 261-266).
- `getURL` (lines 369-371), `dispose`, which disconnects (lines 374-377), and the GATT accessors beyond the built model.
- The handler's liveness check (`isAlive`, stubbed to true at line 92). The model assumes a live handler. `Lifecycle.ConnectCalls` and `Lifecycle.ConnectOrder` list only the calls the test verifies, and the liveness query is not among them.
- Advertisement.Text: states only that each octet gives one character, not a character encoding.
- BluegigaDevice.ReceiveAll: its contract keeps only URL and subscriptions; the address type history is stated by `Lifecycle.AddressTypeFollowsLatest`.

=== FILE: advertisement.dfy ===
/** The advertisement (EIR / AD) decoder of a scan response: the payload is a
    run of AD structures, each a length octet `L` followed by `L` octets whose
    first is the AD type and the rest the AD data (Bluetooth Core
    Specification Vol 3, Part C, section 11). The device keeps the flags,
    local name, class of device and Tx power level it finds there. */
module Advertisement {
  import opened Wrappers
  import opened Bytes

  /** AD type of Flags (Supplement to the Core Specification, Part A, section 1.3). */
  const FlagsType := 0x01
  /** AD type of Shortened Local Name (Supplement, Part A, section 1.2). */
  const ShortenedLocalNameType := 0x08
  /** AD type of Complete Local Name (Supplement, Part A, section 1.2). */
  const CompleteLocalNameType := 0x09
  /** AD type of Tx Power Level (Supplement, Part A, section 1.5). */
  const TxPowerLevelType := 0x0A
  /** AD type of Class of Device. */
  const ClassOfDeviceType := 0x0D

  /** One AD structure: its type octet and its data octets. */
  datatype Structure = Structure(adType: int, data: seq<int>)

  /** A structure that can be written back into a payload: its type is an
      octet and its length octet `|data| + 1` fits in eight bits. */
  predicate WellFormed(s: Structure) {
    0 <= s.adType < 256 && |s.data| < 255
  }

  /** Every structure of the run is well formed. */
  predicate AllWellFormed(structures: seq<Structure>) {
    forall i :: 0 <= i < |structures| ==> WellFormed(structures[i])
  }

  /** Walks the payload structure by structure. The walk stops, keeping what
      it already has, at the zero length octet that ends the significant
      part, when fewer than two octets remain, or when a length octet claims
      more octets than remain (a truncated packet is never an error). */
  function Parse(packet: seq<int>): (structures: seq<Structure>)
    decreases |packet|
  {
    if |packet| < 2 then []
    else
      var length := UnsignedByte(packet[0]);
      if length == 0 || |packet| - 1 < length then []
      else [Structure(UnsignedByte(packet[1]), packet[2..length + 1])] + Parse(packet[length + 1..])
  }

  /** The payload that lists `structures` in order. */
  function Encode(structures: seq<Structure>): (packet: seq<int>)
  {
    if structures == [] then []
    else
      var s := structures[0];
      [|s.data| + 1, s.adType] + s.data + Encode(structures[1..])
  }

  /** Parsing an encoded run of structures followed by anything yields those
      structures first: a round trip, and the guarantee that structures
      before a truncation point are kept. */
  lemma {:induction false} ParseEncoded(structures: seq<Structure>, tail: seq<int>)
    requires AllWellFormed(structures)
    ensures Parse(Encode(structures) + tail) == structures + Parse(tail)
  {
    if structures == [] {
      assert Encode(structures) + tail == tail;
    } else {
      ParseEncoded(structures[1..], tail);
      ParseEncodedStep(structures, tail);
    }
  }

  /** The step of `ParseEncoded`: the first structure is parsed back, then
      whatever the rest parses to. */
  lemma ParseEncodedStep(structures: seq<Structure>, tail: seq<int>)
    requires structures != [] && WellFormed(structures[0])
    requires Parse(Encode(structures[1..]) + tail) == structures[1..] + Parse(tail)
    ensures Parse(Encode(structures) + tail) == structures + Parse(tail)
  {
    var s, more := structures[0], structures[1..];
    EncodeUnfolds(structures, tail);
    ParseUnfolds(Encode(structures) + tail, |s.data| + 1, s.adType, s.data, Encode(more) + tail);
    assert structures + Parse(tail) == [s] + (more + Parse(tail));
  }

  /** The first structure of an encoded run, spelled out. */
  lemma EncodeUnfolds(structures: seq<Structure>, tail: seq<int>)
    requires structures != []
    ensures var s := structures[0];
      Encode(structures) + tail == [|s.data| + 1, s.adType] + (s.data + (Encode(structures[1..]) + tail))
  {
  }

  /** One step of the walk over a payload that starts with a complete
      structure. */
  lemma ParseUnfolds(packet: seq<int>, length: int, adType: int, data: seq<int>, rest: seq<int>)
    requires length == |data| + 1 < 256 && 0 <= adType < 256
    requires packet == [length, adType] + (data + rest)
    ensures Parse(packet) == [Structure(adType, data)] + Parse(rest)
  {
    assert packet[2..length + 1] == data;
    assert packet[length + 1..] == rest;
  }

  /** Whatever the payload, the parser only yields structures that can be
      written back. */
  lemma {:induction false} ParseWellFormed(packet: seq<int>)
    ensures AllWellFormed(Parse(packet))
    decreases |packet|
  {
    if Parse(packet) != [] {
      var length := UnsignedByte(packet[0]);
      ParseWellFormed(packet[length + 1..]);
    }
  }

  /** Round trip: a well-formed run of structures survives encoding. */
  lemma EncodeThenParse(structures: seq<Structure>)
    requires AllWellFormed(structures)
    ensures Parse(Encode(structures)) == structures
  {
    ParseEncoded(structures, []);
    assert Encode(structures) + [] == Encode(structures);
  }

  /** The converse: what the parser returns re-encodes to a prefix of the
      payload, so the parser reads the payload octet for octet and only ever
      drops a trailing part. */
  lemma {:induction false} ParseReadsPrefix(packet: seq<int>)
    requires IsBytes(packet)
    ensures Encode(Parse(packet)) <= packet
    decreases |packet|
  {
    if Parse(packet) != [] {
      ParseHead(packet);
      var rest := packet[packet[0] + 1..];
      ParseReadsPrefix(rest);
      ReadsPrefixStep(packet, Structure(packet[1], packet[2..packet[0] + 1]), Parse(rest));
    }
  }

  /** The step of `ParseReadsPrefix`: a structure read from the front of a
      payload, written back in front of a prefix of the rest. */
  lemma ReadsPrefixStep(packet: seq<int>, s: Structure, more: seq<Structure>)
    requires |packet| >= 2 && 1 <= packet[0] < |packet|
    requires s == Structure(packet[1], packet[2..packet[0] + 1])
    requires Encode(more) <= packet[packet[0] + 1..]
    ensures Encode([s] + more) <= packet
  {
    var rest := packet[packet[0] + 1..];
    var head := [packet[0], packet[1]] + s.data;
    EncodeUnfolds([s] + more, []);
    assert ([s] + more)[1..] == more;
    assert packet == head + rest;
    PrefixExtends(head, Encode(more), rest);
  }

  /** A common head keeps a prefix a prefix. */
  lemma PrefixExtends(head: seq<int>, a: seq<int>, b: seq<int>)
    requires a <= b
    ensures head + a <= head + b
  {
    assert (head + b)[..|head + a|] == head + a;
  }

  /** A byte payload the parser takes a structure from starts with its
      length octet, its type octet and its data. */
  lemma ParseHead(packet: seq<int>)
    requires IsBytes(packet) && Parse(packet) != []
    ensures 1 <= packet[0] < |packet|
    ensures Parse(packet) == [Structure(packet[1], packet[2..packet[0] + 1])] + Parse(packet[packet[0] + 1..])
    ensures IsBytes(packet[packet[0] + 1..])
  {
    assert UnsignedByte(packet[0]) == packet[0];
    assert UnsignedByte(packet[1]) == packet[1];
  }

  /** The text of a name structure, one character per octet. */
  function Text(data: seq<int>): (s: string)
    ensures |s| == |data|
  {
    seq(|data|, i requires 0 <= i < |data| => UnsignedByte(data[i]) as char)
  }

  /** What the device keeps from one advertisement. */
  datatype Fields = Fields(flags: bool, name: Option<string>, deviceClass: Option<int>, txPower: Option<int>)

  /** Nothing decoded yet. */
  const NoFields := Fields(false, None, None, None)

  /** Takes one structure into account: every field it carries is
      overwritten with its reading, so a later structure of a kind overrides
      an earlier one; unrecognised types are skipped. */
  function Absorb(fields: Fields, s: Structure): Fields {
    var f := Put(fields, FlagsField, ReadingOf(s, FlagsField));
    var f := Put(f, NameField, ReadingOf(s, NameField));
    var f := Put(f, ClassField, ReadingOf(s, ClassField));
    Put(f, TxPowerField, ReadingOf(s, TxPowerField))
  }

  /** The structures taken into account in order. */
  function Collect(structures: seq<Structure>): Fields {
    if structures == [] then NoFields
    else Absorb(Collect(structures[..|structures| - 1]), structures[|structures| - 1])
  }

  /** The fields an advertisement payload carries. */
  function Decode(packet: seq<int>): Fields {
    Collect(Parse(packet))
  }

  /** The four fields, to state one property for all of them at once. */
  datatype Field = FlagsField | NameField | ClassField | TxPowerField

  /** The value of a field: flags only count as present. */
  datatype Reading = Present | Named(text: string) | Number(n: int)

  /** The reading a single structure gives for `f`, if it carries `f`:
      flags are present, a shortened or complete local name gives its text,
      class of device is the first data octet, and Tx power level the first
      data octet read as a signed value. */
  function ReadingOf(s: Structure, f: Field): Option<Reading> {
    match f
    case FlagsField => if s.adType == FlagsType then Some(Present) else None
    case NameField =>
      if s.adType in {ShortenedLocalNameType, CompleteLocalNameType} then Some(Named(Text(s.data))) else None
    case ClassField =>
      if s.adType == ClassOfDeviceType && |s.data| > 0 then Some(Number(UnsignedByte(s.data[0]))) else None
    case TxPowerField =>
      if s.adType == TxPowerLevelType && |s.data| > 0 then Some(Number(SignedByte(s.data[0]))) else None
  }

  /** Stores a reading of field `f`; no reading, or one of another shape,
      leaves the fields as they are. */
  function Put(fields: Fields, f: Field, r: Option<Reading>): Fields {
    match (f, r)
    case (FlagsField, Some(Present)) => fields.(flags := true)
    case (NameField, Some(Named(text))) => fields.(name := Some(text))
    case (ClassField, Some(Number(n))) => fields.(deviceClass := Some(n))
    case (TxPowerField, Some(Number(n))) => fields.(txPower := Some(n))
    case _ => fields
  }

  /** Field `f` of decoded fields. */
  function Get(fields: Fields, f: Field): Option<Reading> {
    match f
    case FlagsField => if fields.flags then Some(Present) else None
    case NameField => if fields.name.Some? then Some(Named(fields.name.value)) else None
    case ClassField => if fields.deviceClass.Some? then Some(Number(fields.deviceClass.value)) else None
    case TxPowerField => if fields.txPower.Some? then Some(Number(fields.txPower.value)) else None
  }

  /** Structure `i` carries `f` and no later structure does. */
  predicate IsLastCarrier(structures: seq<Structure>, i: int, f: Field)
    requires 0 <= i < |structures|
  {
    && ReadingOf(structures[i], f).Some?
    && forall j :: i < j < |structures| ==> ReadingOf(structures[j], f).None?
  }

  /** One structure changes exactly the field it carries. */
  lemma AbsorbChangesOneField(fields: Fields, s: Structure, f: Field)
    ensures Get(Absorb(fields, s), f) == if ReadingOf(s, f).Some? then ReadingOf(s, f) else Get(fields, f)
  {
  }

  /** The last structure's reading of `f`, if it has one, overrides what the
      earlier structures decoded to. */
  lemma CollectStep(structures: seq<Structure>, f: Field)
    requires structures != []
    ensures var n := |structures| - 1;
      Get(Collect(structures), f) ==
        if ReadingOf(structures[n], f).Some? then ReadingOf(structures[n], f) else Get(Collect(structures[..n]), f)
  {
    var n := |structures| - 1;
    AbsorbChangesOneField(Collect(structures[..n]), structures[n], f);
  }

  /** Decoding is order-independent per field: a field is present exactly
      when some structure carries it, and then its value is the reading of
      the last structure that does. */
  lemma {:induction false} LastReadingWins(structures: seq<Structure>, f: Field)
    ensures Get(Collect(structures), f).Some? <==>
      exists i :: 0 <= i < |structures| && ReadingOf(structures[i], f).Some?
    ensures forall i :: 0 <= i < |structures| && IsLastCarrier(structures, i, f) ==>
      Get(Collect(structures), f) == ReadingOf(structures[i], f)
    decreases |structures|
  {
    if structures != [] {
      var n := |structures| - 1;
      var init := structures[..n];
      var last := structures[n];
      LastReadingWins(init, f);
      CollectStep(structures, f);
      assert forall i :: 0 <= i < n ==> init[i] == structures[i];
      if ReadingOf(last, f).None? {
        forall i | 0 <= i < |structures| && IsLastCarrier(structures, i, f)
          ensures Get(Collect(structures), f) == ReadingOf(structures[i], f)
        {
          assert i < n;
          assert init[i] == structures[i];
          assert IsLastCarrier(init, i, f);
        }
      }
    }
  }
}

=== FILE: bytes.dfy ===
/** Byte-level conversions: the casts Java applies to the `int[]` payloads of
    BGAPI events, and little-endian integers as the Bluetooth Core
    Specification lays them out on the air. */
module Bytes {

  /** `256^n`. */
  function Pow256(n: nat): (p: nat)
    ensures p >= 1
  {
    if n == 0 then 1 else 256 * Pow256(n - 1)
  }

  /** Java's `v & 0xFF`: the unsigned octet in the low eight bits of `v`. */
  function UnsignedByte(v: int): (b: int)
    ensures 0 <= b < 256
    ensures 0 <= v < 256 ==> b == v
  {
    v % 256
  }

  /** Java's `(byte) v`: the low eight bits of `v` read as two's complement. */
  function SignedByte(v: int): (b: int)
    ensures -128 <= b < 128
    ensures -128 <= v < 128 ==> b == v
    ensures 128 <= v < 256 ==> b == v - 256
    ensures (v - b) % 256 == 0
  {
    (v + 128) % 256 - 128
  }

  /** Java's `(short) v`: the low sixteen bits of `v` read as two's complement. */
  function Int16(v: int): (s: int)
    ensures -32768 <= s < 32768
    ensures -32768 <= v < 32768 ==> s == v
    ensures (v - s) % 65536 == 0
  {
    (v + 32768) % 65536 - 32768
  }

  /** Every element is an octet. */
  predicate IsBytes(bs: seq<int>) {
    forall i :: 0 <= i < |bs| ==> 0 <= bs[i] < 256
  }

  /** The unsigned little-endian value of a byte string (least significant
      octet first), each element first cut to its low eight bits. */
  function LittleEndian(bs: seq<int>): (n: nat)
    ensures n < Pow256(|bs|)
  {
    if bs == [] then 0 else UnsignedByte(bs[0]) + 256 * LittleEndian(bs[1..])
  }

  /** The `width` octets of `n`, least significant first. */
  function ToLittleEndian(n: nat, width: nat): (bs: seq<int>)
    ensures |bs| == width
    ensures IsBytes(bs)
  {
    if width == 0 then [] else [n % 256] + ToLittleEndian(n / 256, width - 1)
  }

  /** Encoding a value that fits in `width` octets and reading it back gives
      the value. */
  lemma {:induction false} LittleEndianRoundTrip(n: nat, width: nat)
    requires n < Pow256(width)
    ensures LittleEndian(ToLittleEndian(n, width)) == n
  {
    if width > 0 {
      var bs := ToLittleEndian(n, width);
      assert bs[1..] == ToLittleEndian(n / 256, width - 1);
      LittleEndianRoundTrip(n / 256, width - 1);
    }
  }

  /** Reading a byte string and encoding the value at the same width gives
      the byte string back. */
  lemma {:induction false} LittleEndianInverse(bs: seq<int>)
    requires IsBytes(bs)
    ensures ToLittleEndian(LittleEndian(bs), |bs|) == bs
  {
    if bs != [] {
      var n := LittleEndian(bs);
      var rest := LittleEndian(bs[1..]);
      assert n == bs[0] + 256 * rest;
      assert n % 256 == bs[0];
      assert n / 256 == rest;
      LittleEndianInverse(bs[1..]);
      assert [bs[0]] + bs[1..] == bs;
    }
  }
}

=== FILE: device.dfy ===
/** One Bluegiga peripheral: its identity, what it observed from
    advertisements, its connection and GATT model, and its notification
    subscriptions. Every operation is a pure transition that returns the new
    device together with the trace of what it did. The shared dongle is
    entered in a serialized context by the source; the model runs each
    operation as one sequential step. */
module BluegigaDevice {
  import opened Wrappers
  import opened Bytes
  import Advertisement
  import Gatt
  import opened Handler
  import opened Trace

  /** Seconds after the last advertisement beyond which its signal strength
      is stale. Fixed at 10 by this model; the test does not pin the value. */
  const DiscoveryTimeout: nat := 10

  /** A notification subscriber; `raises` marks one whose callback throws. */
  datatype Subscriber = Subscriber(id: nat, raises: bool)

  /** At most one subscriber per channel. */
  datatype Subscriptions = Subscriptions(
    connected: Option<Subscriber>,
    servicesResolved: Option<Subscriber>,
    rssi: Option<Subscriber>)

  const NoSubscriptions := Subscriptions(None, None, None)

  /** The subscriber of a channel. */
  function SubscriberOn(subs: Subscriptions, ch: Channel): Option<Subscriber> {
    match ch
    case ConnectedChannel => subs.connected
    case ServicesResolvedChannel => subs.servicesResolved
    case RssiChannel => subs.rssi
  }

  /** What advertisements told the device; zero values until observed. */
  datatype Observed = Observed(
    name: Option<string>,
    deviceClass: int,
    txPower: int,
    bleEnabled: bool,
    rssi: int,
    lastDiscovered: Option<int>)

  datatype Device = Device(
    url: DeviceUrl,
    addressType: AddressType,
    connection: Option<nat>,
    servicesResolved: bool,
    services: seq<Gatt.Service>,
    observed: Observed,
    alias: Option<string>,
    subscriptions: Subscriptions)

  /** A device that has seen nothing and holds no connection. */
  function Create(url: DeviceUrl): Device {
    Device(url, UnknownAddress, None, false, [], Observed(None, 0, 0, false, 0, None), None, NoSubscriptions)
  }

  /** No connection, so nothing resolved and no GATT model. */
  predicate WithoutConnection(d: Device) {
    d.connection.None? && !d.servicesResolved && d.services == []
  }

  /** The invariant every reachable device keeps: a GATT model only while a
      connection handle is held. */
  predicate Valid(d: Device) {
    d.connection.None? ==> !d.servicesResolved && d.services == []
  }

  /** The parts of a device that connection operations leave alone. */
  predicate SameIdentity(a: Device, b: Device) {
    a.url == b.url && a.addressType == b.addressType && a.observed == b.observed &&
    a.alias == b.alias && a.subscriptions == b.subscriptions
  }

  /** The advertised name, or the device's address while none was seen. */
  function Name(d: Device): (name: string)
    ensures d.observed.name.None? ==> name == d.url.device
    ensures d.observed.name.Some? ==> name == d.observed.name.value
  {
    d.observed.name.GetOr(d.url.device)
  }

  /** The result of an operation, the device after it and what it did. */
  datatype Outcome = Outcome(device: Device, trace: seq<Step>, result: bool)

  /** The answer of a query and the calls it made. */
  datatype Answer<T> = Answer(value: T, trace: seq<Step>)

  /** The effect of one pushed event. */
  datatype Reaction = Reaction(device: Device, trace: seq<Step>)

  /** The notifications a subscriber of `ch` is expected to see for `p`. */
  function Expected(subs: Subscriptions, ch: Channel, p: Payload): seq<Step> {
    if SubscriberOn(subs, ch).Some? then [Notified(ch, p)] else []
  }

  /** Delivers `p` on `ch`. A subscriber that raises still receives it; the
      fault is swallowed and recorded. */
  function Deliver(subs: Subscriptions, ch: Channel, p: Payload): (t: seq<Step>)
    ensures View(t, NotifyKind) == Expected(subs, ch, p)
    ensures View(t, CallKind) == [] && View(t, PhaseKind) == []
  {
    match SubscriberOn(subs, ch)
    case None => []
    case Some(s) =>
      if s.raises then [Notified(ch, p), Discarded(ch)] else [Notified(ch, p)]
  }

  /** The connected and services-resolved notifications of a state change. */
  function Announcements(subs: Subscriptions, on: bool): seq<Step> {
    Expected(subs, ConnectedChannel, Flag(on)) + Expected(subs, ServicesResolvedChannel, Flag(on))
  }

  /** Delivers the connected, then the services-resolved state. A fault in
      the first subscriber does not stop delivery to the second. */
  function Announce(subs: Subscriptions, on: bool): (t: seq<Step>)
    ensures View(t, NotifyKind) == Announcements(subs, on)
    ensures View(t, CallKind) == [] && View(t, PhaseKind) == []
  {
    var a := Deliver(subs, ConnectedChannel, Flag(on));
    var b := Deliver(subs, ServicesResolvedChannel, Flag(on));
    ViewConcat(a, b, NotifyKind);
    ViewConcat(a, b, CallKind);
    ViewConcat(a, b, PhaseKind);
    a + b
  }

  /** Every reply of the connect sequence arrived. */
  predicate ConnectSucceeds(h: Replies) {
    h.connect.Ok? && h.services.Ok? && h.characteristics.Ok? && h.declarations.Ok?
  }

  /** A failed connect: the sequence stops at the call that raised and the
      device is left without a connection. */
  function Abort(d: Device, t: seq<Step>): Outcome {
    Outcome(d.(connection := None, servicesResolved := false, services := []), t, false)
  }

  /** Establishing the connection: ask whether the dongle is discovering,
      connect with the held address type, and when it was discovering stop
      the procedure and start scanning again (connecting while a scan runs
      leaves the dongle's scan state inconsistent). */
  function Establish(d: Device, h: Replies): seq<Step> {
    [Enter(EstablishConnection), Call(IsDiscovering), Call(ConnectTo(d.url, d.addressType))]
    + (if h.connect.Ok? && h.discovering then [Call(StopProcedure), Call(StartScanning)] else [])
  }

  /** The discovery phases, in the order a connect runs them. */
  const DiscoveryPhases: seq<Phase> := [DiscoverServices, DiscoverCharacteristics, DiscoverDeclarations]

  /** The handler call a discovery phase makes for connection `handle`. */
  function DiscoveryCall(p: Phase, handle: nat): Call
    requires p in DiscoveryPhases
  {
    match p
    case DiscoverServices => GetServices(handle)
    case DiscoverCharacteristics => GetCharacteristics(handle)
    case DiscoverDeclarations => GetDeclarations(handle)
  }

  /** The first `n` discovery phases, each entered and then making its call. */
  function Discovery(handle: nat, n: nat): seq<Step>
    requires n <= |DiscoveryPhases|
  {
    if n == 0 then []
    else
      var p := DiscoveryPhases[n - 1];
      Discovery(handle, n - 1) + [Enter(p), Call(DiscoveryCall(p, handle))]
  }

  /** How many discovery phases a connect runs: none when the connect call
      raised, and otherwise up to and including the first whose call raised. */
  function Attempted(h: Replies): (n: nat)
    ensures n <= |DiscoveryPhases|
    ensures n == |DiscoveryPhases| ==> h.connect.Ok? && h.services.Ok? && h.characteristics.Ok?
  {
    if h.connect.Failed? then 0
    else if h.services.Failed? then 1
    else if h.characteristics.Failed? then 2
    else 3
  }

  /** The steps of a connect up to the first failure or the last discovery. */
  function Attempt(d: Device, h: Replies): seq<Step> {
    Establish(d, h) + (if h.connect.Ok? then Discovery(h.connect.value.connection, Attempted(h)) else [])
  }

  /** Connects and discovers services, characteristics and declarations, in
      that order, each step only if the one before succeeded. On success the
      device holds the handle of the connect reply and the GATT model built
      from the three replies, and announces connected and services-resolved. */
  function Connect(d: Device, h: Replies): (o: Outcome)
    ensures o.result <==> ConnectSucceeds(h)
    ensures SameIdentity(o.device, d)
    ensures o.result ==>
      && o.device.connection == Some(h.connect.value.connection)
      && o.device.servicesResolved
      && o.device.services == Gatt.Build(h.services.value, h.characteristics.value, h.declarations.value)
    ensures !o.result ==> WithoutConnection(o.device)
  {
    var t := Attempt(d, h);
    if !ConnectSucceeds(h) then Abort(d, t)
    else
      var services := Gatt.Build(h.services.value, h.characteristics.value, h.declarations.value);
      Outcome(d.(connection := Some(h.connect.value.connection), servicesResolved := true, services := services),
              t + Announce(d.subscriptions, true), true)
  }

  /** Disconnects the held connection: the handle is released, the GATT
      model dropped and connected / services-resolved announced false,
      whatever the handler answers. Without a handle nothing happens. */
  function Disconnect(d: Device, h: Replies): (o: Outcome)
    ensures d.connection.None? ==> o == Outcome(d, [], false)
    ensures d.connection.Some? ==> WithoutConnection(o.device) && SameIdentity(o.device, d)
    ensures o.result <==> d.connection.Some? && h.disconnected
  {
    match d.connection
    case None => Outcome(d, [], false)
    case Some(handle) =>
      Outcome(d.(connection := None, servicesResolved := false, services := []),
              [Call(DisconnectFrom(handle))] + Announce(d.subscriptions, false), h.disconnected)
  }

  /** Asks the handler for the status of the held connection; connected only
      when the peripheral at the other end is this device, since handles are
      reused across peripherals. */
  function IsConnected(d: Device, h: Replies): (a: Answer<bool>)
    ensures a.value <==> d.connection.Some? && h.status.Some? && h.status.value.address == d.url.device
    ensures d.connection.None? ==> a.trace == []
    ensures d.connection.Some? ==> a.trace == [Call(GetConnectionStatus(d.connection.value))]
  {
    match d.connection
    case None => Answer(false, [])
    case Some(handle) =>
      Answer(h.status.Some? && h.status.value.address == d.url.device, [Call(GetConnectionStatus(handle))])
  }

  /** The last advertisement is recent enough to trust its signal strength. */
  predicate Fresh(o: Observed, now: int) {
    o.lastDiscovered.Some? && now - o.lastDiscovered.value <= DiscoveryTimeout
  }

  /** Signal strength: read live from the handler while connected, otherwise
      the last advertised value while fresh, otherwise zero. */
  function Rssi(d: Device, h: Replies, now: int): (a: Answer<int>)
    ensures var c := IsConnected(d, h);
      && (c.value ==> a.value == Int16(h.rssi) && a.trace == c.trace + [Call(GetRssi(d.connection.value))])
      && (!c.value && Fresh(d.observed, now) ==> a.value == d.observed.rssi && a.trace == c.trace)
      && (!c.value && !Fresh(d.observed, now) ==> a.value == 0 && a.trace == c.trace)
  {
    var c := IsConnected(d, h);
    if c.value then Answer(Int16(h.rssi), c.trace + [Call(GetRssi(d.connection.value))])
    else if Fresh(d.observed, now) then Answer(d.observed.rssi, c.trace)
    else Answer(0, c.trace)
  }

  /** Takes a decoded advertisement into account: name, class and tx power
      when present, BLE enabled once a flags structure was seen, and the
      signal strength stamped with the time it was heard. */
  function Observe(o: Observed, fields: Advertisement.Fields, level: int, now: int): (o': Observed)
    ensures o'.name == (if fields.name.Some? then fields.name else o.name)
    ensures o'.deviceClass == fields.deviceClass.GetOr(o.deviceClass)
    ensures o'.txPower == fields.txPower.GetOr(o.txPower)
    ensures o'.bleEnabled <==> o.bleEnabled || fields.flags
    ensures o'.rssi == level && o'.lastDiscovered == Some(now)
  {
    Observed(
      if fields.name.Some? then fields.name else o.name,
      fields.deviceClass.GetOr(o.deviceClass),
      fields.txPower.GetOr(o.txPower),
      o.bleEnabled || fields.flags,
      level,
      Some(now))
  }

  /** Reacts to one pushed event at time `now`. A scan response from this
      device updates the address type when it reports a known one, the
      observed state, and
      notifies the signal strength. A disconnect of the held handle releases
      it; unless the local host ended the connection, connected and
      services-resolved are announced false. Anything else is ignored. */
  function Receive(d: Device, e: Event, now: int): (r: Reaction)
    ensures r.device.url == d.url && r.device.alias == d.alias && r.device.subscriptions == d.subscriptions
    ensures View(r.trace, CallKind) == [] && View(r.trace, PhaseKind) == []
    ensures Valid(d) ==> Valid(r.device)
  {
    match e
    case ScanResponse(sender, data, rssi, reported) =>
      if sender != d.url.device then Reaction(d, [])
      else
        var level := Int16(rssi);
        var held := if reported.GapUnknown? then d.addressType else AddressTypeOf(reported);
        Reaction(d.(addressType := held, observed := Observe(d.observed, Advertisement.Decode(data), level, now)),
                 Deliver(d.subscriptions, RssiChannel, Level(level)))
    case Disconnected(connection, reason) =>
      if d.connection != Some(connection) then Reaction(d, [])
      else
        Reaction(d.(connection := None, servicesResolved := false, services := []),
                 if reason.TerminatedByLocalHost? then [] else Announce(d.subscriptions, false))
    case OtherEvent => Reaction(d, [])
  }

  /** Reacts to events in order, all at time `now`. */
  function ReceiveAll(d: Device, events: seq<Event>, now: int): (d': Device)
    ensures d'.url == d.url && d'.subscriptions == d.subscriptions
    decreases |events|
  {
    if events == [] then d
    else ReceiveAll(Receive(d, events[0], now).device, events[1..], now)
  }

  /** Subscribes `s` to `ch`, replacing any earlier subscriber of `ch`. */
  function Enable(d: Device, ch: Channel, s: Subscriber): (d': Device)
    ensures SubscriberOn(d'.subscriptions, ch) == Some(s)
    ensures forall other :: other != ch ==> SubscriberOn(d'.subscriptions, other) == SubscriberOn(d.subscriptions, other)
    ensures d' == d.(subscriptions := d'.subscriptions)
  {
    var subs := d.subscriptions;
    d.(subscriptions := match ch
      case ConnectedChannel => subs.(connected := Some(s))
      case ServicesResolvedChannel => subs.(servicesResolved := Some(s))
      case RssiChannel => subs.(rssi := Some(s)))
  }

  /** Removes the subscriber of `ch`. */
  function Disable(d: Device, ch: Channel): (d': Device)
    ensures SubscriberOn(d'.subscriptions, ch).None?
    ensures forall other :: other != ch ==> SubscriberOn(d'.subscriptions, other) == SubscriberOn(d.subscriptions, other)
    ensures d' == d.(subscriptions := d'.subscriptions)
  {
    var subs := d.subscriptions;
    d.(subscriptions := match ch
      case ConnectedChannel => subs.(connected := None)
      case ServicesResolvedChannel => subs.(servicesResolved := None)
      case RssiChannel => subs.(rssi := None))
  }

  /** Sets the alias, a label kept only in memory. */
  function SetAlias(d: Device, alias: string): (d': Device)
    ensures d'.alias == Some(alias)
    ensures d' == d.(alias := d'.alias)
  {
    d.(alias := Some(alias))
  }
}

=== FILE: fixtures.dfy ===
/** The concrete scenarios of the device's behaviour: the Smartlock
    advertisement, the battery / Tx power GATT database, the connect
    sequence with and without the discovery workaround, a connection handle
    reused by another peripheral, disconnect events and changing address
    types. */
module Fixtures {
  import opened Wrappers
  import opened Bytes
  import Advertisement
  import opened Gatt
  import opened Handler
  import opened Trace
  import opened BluegigaDevice
  import Lifecycle

  const Url := DeviceUrl("12:34:56:78:90:12", "11:22:33:44:55:66")
  const Handle: nat := 1

  /** Flags (BR/EDR not supported) and a shortened local name. */
  const SmartlockPacket: seq<int> := [2, 1, 4, 10, 8, 83, 109, 97, 114, 116, 108, 111, 99, 107]
  /** The same name without a flags structure. */
  const NoFlagsPacket: seq<int> := [10, 8, 83, 109, 97, 114, 116, 108, 111, 99, 107]
  const ClassPacket: seq<int> := [2, Advertisement.ClassOfDeviceType, 10]
  const TxPowerPacket: seq<int> := [2, Advertisement.TxPowerLevelType, -60]

  /** The battery service over handles 1 to 10 and the Tx power service over
      11 to 15, each with a declaration, one characteristic and its client
      configuration descriptor. */
  const Groups: seq<GroupFound> := [GroupFound(0x180F, 1, 10), GroupFound(0x1804, 11, 15)]
  const Infos: seq<InformationFound> := [
    InformationFound(0x2800, 1), InformationFound(0x2A19, 2), InformationFound(0x2902, 3),
    InformationFound(0x2800, 11), InformationFound(0x2A07, 12), InformationFound(0x2902, 13)]
  /** The battery level declaration: read and notify, value handle 3, UUID 0x2A19. */
  const Declarations: seq<AttributeValue> := [AttributeValue(4, [0x12, 3, 0, 0x19, 0x2a])]

  const Status := ConnectionStatus(Handle, Url.device)

  /** The name "Smartlock" in ASCII. */
  const SmartlockName: seq<int> := [83, 109, 97, 114, 116, 108, 111, 99, 107]

  lemma SmartlockText()
    ensures Advertisement.Text(SmartlockName) == "Smartlock"
  {
    var t := Advertisement.Text(SmartlockName);
    assert t[0] == 'S' && t[1] == 'm' && t[2] == 'a' && t[3] == 'r' && t[4] == 't';
    assert t[5] == 'l' && t[6] == 'o' && t[7] == 'c' && t[8] == 'k';
  }

  /** The Smartlock payload is a flags structure followed by a shortened
      local name structure. */
  lemma SmartlockStructures()
    ensures Advertisement.Parse(SmartlockPacket) ==
      [Advertisement.Structure(Advertisement.FlagsType, [4]),
       Advertisement.Structure(Advertisement.ShortenedLocalNameType, SmartlockName)]
  {
    var structures := [Advertisement.Structure(Advertisement.FlagsType, [4]),
                       Advertisement.Structure(Advertisement.ShortenedLocalNameType, SmartlockName)];
    assert Advertisement.Encode(structures[1..][1..]) == [];
    assert Advertisement.Encode(structures) + [] == SmartlockPacket;
    Advertisement.ParseEncoded(structures, []);
    assert Advertisement.Parse([]) == [];
  }

  lemma SmartlockAdvertisement()
    ensures Advertisement.Decode(SmartlockPacket) == Advertisement.Fields(true, Some("Smartlock"), None, None)
  {
    SmartlockStructures();
    SmartlockText();
    var structures := Advertisement.Parse(SmartlockPacket);
    var first := structures[0];
    var flags := Advertisement.Collect([first]);
    assert [first][..0] == [];
    assert Advertisement.Collect([]) == Advertisement.NoFields;
    assert flags == Advertisement.Absorb(Advertisement.NoFields, first);
    assert structures[..1] == [first];
    assert flags == Advertisement.Fields(true, None, None, None);
    assert structures[..|structures| - 1] == structures[..1];
    assert Advertisement.Collect(structures) == Advertisement.Absorb(flags, structures[1]);
  }

  lemma AdvertisementsWithoutFlags()
    ensures Advertisement.Decode(NoFlagsPacket) == Advertisement.Fields(false, Some("Smartlock"), None, None)
  {
    var structures := [Advertisement.Structure(Advertisement.ShortenedLocalNameType, SmartlockName)];
    assert Advertisement.Encode(structures[1..]) == [];
    assert Advertisement.Encode(structures) + [] == NoFlagsPacket;
    Advertisement.ParseEncoded(structures, []);
    assert Advertisement.Parse([]) == [];
    SmartlockText();
    assert structures[..0] == [];
  }

  lemma ClassAndTxPower()
    ensures Advertisement.Decode(ClassPacket).deviceClass == Some(10)
    ensures Advertisement.Decode(TxPowerPacket).txPower == Some(-60)
  {
    var classOf := [Advertisement.Structure(Advertisement.ClassOfDeviceType, [10])];
    var tx := [Advertisement.Structure(Advertisement.TxPowerLevelType, [-60])];
    assert Advertisement.Encode(classOf[1..]) == [] && Advertisement.Encode(tx[1..]) == [];
    assert Advertisement.Encode(classOf) + [] == ClassPacket;
    assert Advertisement.Encode(tx) + [] == TxPowerPacket;
    Advertisement.ParseEncoded(classOf, []);
    Advertisement.ParseEncoded(tx, []);
    assert Advertisement.Parse([]) == [];
    assert classOf[..0] == [] && tx[..0] == [];
  }

  /** A new device: its address as name, zero class, Tx power and signal
      strength, unknown address type and no alias. */
  lemma Defaults(h: Replies, now: int)
    ensures var d := Create(Url);
      && Name(d) == Url.device
      && d.observed.deviceClass == 0 && d.observed.txPower == 0 && !d.observed.bleEnabled
      && d.addressType == UnknownAddress && d.alias == None
      && Rssi(d, h, now).value == 0
  {
  }

  /** A scan response names the device, enables BLE and gives a signal
      strength that lapses after the discovery timeout. */
  lemma ScanResponseObserved(h: Replies)
    ensures var d := Receive(Create(Url), ScanResponse(Url.device, SmartlockPacket, -88, GapUnknown), 100).device;
      && Name(d) == "Smartlock" && d.observed.bleEnabled
      && Rssi(d, h, 100).value == -88
      && Rssi(d, h, 100 + DiscoveryTimeout + 1).value == 0
  {
    SmartlockAdvertisement();
  }

  /** The services of the fixture before characteristic discovery. */
  const Empty: seq<Service> := [Service(0x180F, 1, 10, []), Service(0x1804, 11, 15, [])]
  /** The services after characteristic discovery. */
  const Attached: seq<Service> :=
    [Service(0x180F, 1, 10, [Characteristic(0x2A19, 2, {})]), Service(0x1804, 11, 15, [Characteristic(0x2A07, 12, {})])]

  /** The services after the battery service's entries. */
  const BatteryAttached: seq<Service> :=
    [Service(0x180F, 1, 10, [Characteristic(0x2A19, 2, {})]), Service(0x1804, 11, 15, [])]

  /** The battery service's entries attach the battery level only. */
  lemma FixtureBatteryCharacteristics()
    ensures Attach(Empty, Infos[..4]) == BatteryAttached
  {
    var half := BatteryAttached;
    assert Infos[..1][..0] == [];
    assert Attach(Empty, Infos[..1]) == Empty;
    assert ServiceIndexFor(Empty, 2) == Some(0);
    assert Infos[..2][..1] == Infos[..1];
    assert Infos[..2][1] == InformationFound(0x2A19, 2) && Kept(Infos[..2][1]);
    assert Empty[0].characteristics + [Characteristic(0x2A19, 2, {})] == [Characteristic(0x2A19, 2, {})];
    assert Empty[0 := Empty[0].(characteristics := [Characteristic(0x2A19, 2, {})])][0] == half[0];
    assert Empty[0 := Empty[0].(characteristics := [Characteristic(0x2A19, 2, {})])] == half;
    assert Attach(Empty, Infos[..2]) == half;
    assert Infos[..3][..2] == Infos[..2];
    assert Attach(Empty, Infos[..3]) == half;
    assert Infos[..4][..3] == Infos[..3];
  }

  /** Characteristic discovery keeps the battery level and the Tx power
      level, each in its own service, and drops the declarations and the
      descriptors. */
  lemma FixtureCharacteristics()
    ensures Attach(ServicesOf(Groups), Infos) == Attached
  {
    var half := BatteryAttached;
    assert ServicesOf(Groups) == Empty;
    FixtureBatteryCharacteristics();
    assert ServiceIndexFor(Empty, 12) == Some(1) by {
      assert Empty[1..] == [Empty[1]];
    }
    assert Infos[..5][..4] == Infos[..4];
    assert Infos[..5][4] == InformationFound(0x2A07, 12) && Kept(Infos[..5][4]);
    assert half[1].characteristics + [Characteristic(0x2A07, 12, {})] == [Characteristic(0x2A07, 12, {})];
    assert half[1 := half[1].(characteristics := [Characteristic(0x2A07, 12, {})])][1] == Attached[1];
    assert half[1 := half[1].(characteristics := [Characteristic(0x2A07, 12, {})])] == Attached;
    assert Attach(Empty, Infos[..5]) == Attached;
    assert Infos[..5] == Infos[..|Infos| - 1];
  }

  /** The battery level declaration declares read and notify for 0x2A19. */
  lemma BatteryLevelDeclaration()
    ensures ParseDeclaration(Declarations[0].value) == Some(Declaration(0x12, 3, 0x2A19))
    ensures DecodeProperties(0x12) == {Read, Notify}
  {
    var value := Declarations[0].value;
    assert value[1..3] == [3, 0] && value[3..] == [0x19, 0x2a];
    assert LittleEndian([0]) == 0 by {
      assert [0][1..] == [];
    }
    assert LittleEndian([0x2a]) == 0x2a by {
      assert [0x2a][1..] == [];
    }
    assert [3, 0][1..] == [0] && [0x19, 0x2a][1..] == [0x2a];
    assert DecodeBits(0x12, 0) == {Read, Notify};
  }

  /** The fixture database: each service keeps its one characteristic, the
      battery level gets read and notify from its declaration, and Tx power
      level, without a declaration, no flags. */
  lemma GattFixture()
    ensures Build(Groups, Infos, Declarations) == [
      Service(0x180F, 1, 10, [Characteristic(0x2A19, 2, {Read, Notify})]),
      Service(0x1804, 11, 15, [Characteristic(0x2A07, 12, {})])]
  {
    FixtureCharacteristics();
    BatteryLevelDeclaration();
    assert Declarations[..0] == [];
    assert ServiceIndexFor(Attached, 4) == Some(0);
    assert SetFlags(Attached[0].characteristics, 0x2A19, {Read, Notify}) == [Characteristic(0x2A19, 2, {Read, Notify})];
  }

  /** Replies in which every call answers and the dongle is not discovering. */
  predicate AllAnswer(h: Replies) {
    h.connect == Ok(Status) && h.services.Ok? && h.characteristics.Ok? && h.declarations.Ok? && !h.discovering
  }

  /** Connecting with every call answering. */
  lemma ConnectFixture(h: Replies)
    requires AllAnswer(h)
    ensures var o := Connect(Create(Url), h);
      && o.result
      && o.device.connection == Some(Handle)
      && View(o.trace, CallKind) == [
        Call(IsDiscovering), Call(ConnectTo(Url, UnknownAddress)),
        Call(GetServices(Handle)), Call(GetCharacteristics(Handle)), Call(GetDeclarations(Handle))]
  {
    Lifecycle.ConnectOrder(Create(Url), h);
  }

  /** Connecting while the dongle discovers stops and restarts scanning
      right after the connect call. */
  lemma ConnectStopsDiscovery(h: Replies)
    requires AllAnswer(h.(discovering := false)) && h.discovering
    ensures View(Connect(Create(Url), h).trace, CallKind) == [
      Call(IsDiscovering), Call(ConnectTo(Url, UnknownAddress)), Call(StopProcedure), Call(StartScanning),
      Call(GetServices(Handle)), Call(GetCharacteristics(Handle)), Call(GetDeclarations(Handle))]
  {
    Lifecycle.ConnectOrder(Create(Url), h);
  }

  /** After connecting the device is connected, but not once the handle
      reports another peripheral; disconnecting still succeeds and leaves it
      disconnected. */
  lemma HandleReused(h: Replies)
    requires AllAnswer(h) && h.status == Some(Status) && h.disconnected
    ensures var d := Connect(Create(Url), h).device;
      && IsConnected(d, h).value
      && !IsConnected(d, h.(status := Some(ConnectionStatus(Handle, "wrong address")))).value
      && Disconnect(d, h).result
      && !IsConnected(Disconnect(d, h).device, h).value
  {
  }

  /** Disconnect events on a device connected on the fixture handle with
      connected and services-resolved subscribers: another handle is
      ignored, the local host's own disconnect drops the connection
      silently, a timeout announces it. */
  lemma DisconnectEvents(d: Device, h: Replies)
    requires d.url == Url && d.connection == Some(Handle) && h.status == Some(Status)
    requires d.subscriptions == Subscriptions(Some(Subscriber(1, false)), Some(Subscriber(2, false)), None)
    ensures IsConnected(Receive(d, Disconnected(0, Timeout), 0).device, h).value
    ensures Receive(d, Disconnected(Handle, TerminatedByLocalHost), 0).trace == []
    ensures !IsConnected(Receive(d, Disconnected(Handle, TerminatedByLocalHost), 0).device, h).value
    ensures Receive(d, Disconnected(Handle, Timeout), 0).trace ==
      [Notified(ConnectedChannel, Flag(false)), Notified(ServicesResolvedChannel, Flag(false))]
  {
    var other := Receive(d, Disconnected(0, Timeout), 0);
    assert other.device.connection == Some(Handle);
    var local := Receive(d, Disconnected(Handle, TerminatedByLocalHost), 0);
    assert local.device.connection.None?;
  }

  /** The address type follows the advertisements, and connect uses it. */
  lemma AddressTypes(data: seq<int>, h: Replies)
    ensures var d := Receive(Create(Url), ScanResponse(Url.device, data, -100, GapPublic), 0).device;
      && d.addressType == PublicAddress
      && Connect(d, h).trace[2] == Call(ConnectTo(Url, PublicAddress))
      && Receive(d, ScanResponse(Url.device, data, -100, GapRandom), 0).device.addressType == RandomAddress
  {
  }

  /** A raising subscriber of signal strength still gets every reading until
      it is removed, and nothing after. */
  lemma RssiNotifications()
    ensures var d := Enable(Create(Url), RssiChannel, Subscriber(1, true));
      var first := Receive(d, ScanResponse(Url.device, SmartlockPacket, -87, GapUnknown), 0);
      var second := Receive(first.device, ScanResponse(Url.device, SmartlockPacket, -77, GapUnknown), 0);
      && first.trace == [Notified(RssiChannel, Level(-87)), Discarded(RssiChannel)]
      && second.trace == [Notified(RssiChannel, Level(-77)), Discarded(RssiChannel)]
      && Receive(Disable(second.device, RssiChannel), ScanResponse(Url.device, SmartlockPacket, -66, GapUnknown), 0).trace == []
  {
  }

  /** A scan response without an address type keeps the unknown type, so the
      following connect asks for an unknown address type. */
  lemma UnreportedAddressType(h: Replies)
    ensures var d := Receive(Create(Url), ScanResponse(Url.device, SmartlockPacket, -100, GapUnknown), 0).device;
      && d.addressType == UnknownAddress
      && |View(Connect(d, h).trace, CallKind)| >= 2
      && View(Connect(d, h).trace, CallKind)[..2] == [Call(IsDiscovering), Call(ConnectTo(Url, UnknownAddress))]
  {
    var d := Receive(Create(Url), ScanResponse(Url.device, SmartlockPacket, -100, GapUnknown), 0).device;
    Lifecycle.ConnectStartsByConnecting(d, h);
  }
}

=== FILE: gatt.dfy ===
/** The GATT model a connection discovers: services with their handle
    ranges, the characteristics inside them, and each characteristic's access
    flags, built from the three attribute-client event lists the dongle
    returns (group found, information found, attribute value). */
module Gatt {
  import opened Wrappers
  import opened Bytes

  /** A 16-bit or 128-bit UUID, compared by value. */
  type Uuid = nat

  /** Attribute type of a Primary Service declaration. */
  const PrimaryServiceUuid: Uuid := 0x2800
  /** Attribute type of a Client Characteristic Configuration descriptor. */
  const ClientCharacteristicConfigurationUuid: Uuid := 0x2902

  /** A group-found event: one primary service and its handle range. */
  datatype GroupFound = GroupFound(uuid: Uuid, start: int, end: int)

  /** A find-information-found event: the type of the attribute at a handle. */
  datatype InformationFound = InformationFound(uuid: Uuid, handle: int)

  /** An attribute-value event: the value of a characteristic declaration read
      at attribute handle `attHandle`. */
  datatype AttributeValue = AttributeValue(attHandle: int, value: seq<int>)

  /** The characteristic properties of Bluetooth Core Specification Vol 3,
      Part G, section 3.3.1.1. */
  datatype AccessType =
    | Broadcast | Read | WriteWithoutResponse | Write | Notify | Indicate
    | AuthenticatedSignedWrites | ExtendedProperties

  /** Bit `i` of the properties octet names `PropertyOrder[i]`. */
  const PropertyOrder: seq<AccessType> :=
    [Broadcast, Read, WriteWithoutResponse, Write, Notify, Indicate, AuthenticatedSignedWrites, ExtendedProperties]

  /** The bit position of an access type. */
  function Position(a: AccessType): (i: nat)
    ensures i < 8 && PropertyOrder[i] == a
  {
    match a
    case Broadcast => 0
    case Read => 1
    case WriteWithoutResponse => 2
    case Write => 3
    case Notify => 4
    case Indicate => 5
    case AuthenticatedSignedWrites => 6
    case ExtendedProperties => 7
  }

  /** Distinct bits name distinct access types. */
  lemma PositionOfOrder(i: nat)
    requires i < 8
    ensures Position(PropertyOrder[i]) == i
  {
    if i == 0 {} else if i == 1 {} else if i == 2 {} else if i == 3 {}
    else if i == 4 {} else if i == 5 {} else if i == 6 {} else {}
  }

  /** `2^n`. */
  function Pow2(n: nat): (p: nat)
    ensures p >= 1
  {
    if n == 0 then 1 else 2 * Pow2(n - 1)
  }

  /** The access types named by `bits`, whose lowest bit stands for
      position `i`. */
  function DecodeBits(bits: nat, i: nat): (flags: set<AccessType>)
    requires i <= 8
    ensures forall a :: a in flags ==> i <= Position(a)
    decreases 8 - i
  {
    if i == 8 then {}
    else
      PositionOfOrder(i);
      (if bits % 2 == 1 then {PropertyOrder[i]} else {}) + DecodeBits(bits / 2, i + 1)
  }

  /** The bits that name the access types of `flags` at positions `i` and up. */
  function EncodeBits(flags: set<AccessType>, i: nat): (bits: nat)
    requires i <= 8
    ensures bits < Pow2(8 - i)
    decreases 8 - i
  {
    if i == 8 then 0
    else (if PropertyOrder[i] in flags then 1 else 0) + 2 * EncodeBits(flags, i + 1)
  }

  /** The access flags of a characteristic properties octet. */
  function DecodeProperties(properties: int): set<AccessType> {
    DecodeBits(UnsignedByte(properties), 0)
  }

  /** The characteristic properties octet of a set of access flags. */
  function EncodeProperties(flags: set<AccessType>): int {
    EncodeBits(flags, 0)
  }

  /** Only positions `i` and up matter to `EncodeBits(_, i)`. */
  lemma {:induction false} EncodeBitsFrame(s: set<AccessType>, t: set<AccessType>, i: nat)
    requires i <= 8
    requires forall j :: i <= j < 8 ==> (PropertyOrder[j] in s <==> PropertyOrder[j] in t)
    ensures EncodeBits(s, i) == EncodeBits(t, i)
    decreases 8 - i
  {
    if i < 8 {
      EncodeBitsFrame(s, t, i + 1);
    }
  }

  lemma {:induction false} EncodeDecodeBits(bits: nat, i: nat)
    requires i <= 8 && bits < Pow2(8 - i)
    ensures EncodeBits(DecodeBits(bits, i), i) == bits
    decreases 8 - i
  {
    if i < 8 {
      var rest := DecodeBits(bits / 2, i + 1);
      var flags := DecodeBits(bits, i);
      PositionOfOrder(i);
      assert PropertyOrder[i] !in rest;
      assert PropertyOrder[i] in flags <==> bits % 2 == 1;
      forall j | i + 1 <= j < 8
        ensures PropertyOrder[j] in flags <==> PropertyOrder[j] in rest
      {
        PositionOfOrder(j);
      }
      EncodeBitsFrame(flags, rest, i + 1);
      EncodeDecodeBits(bits / 2, i + 1);
    }
  }

  lemma {:induction false} DecodeEncodeBits(flags: set<AccessType>, i: nat)
    requires i <= 8
    ensures DecodeBits(EncodeBits(flags, i), i) == Above(flags, i)
    decreases 8 - i
  {
    if i < 8 {
      var bits := EncodeBits(flags, i);
      var low := if PropertyOrder[i] in flags then 1 else 0;
      var higher := EncodeBits(flags, i + 1);
      assert bits == low + 2 * higher;
      assert bits % 2 == low && bits / 2 == higher;
      DecodeEncodeBits(flags, i + 1);
      AboveSplits(flags, i);
    }
  }

  /** The members of `flags` at positions `i` and up. */
  function Above(flags: set<AccessType>, i: nat): set<AccessType> {
    set a | a in flags && i <= Position(a)
  }

  lemma AboveSplits(flags: set<AccessType>, i: nat)
    requires i < 8
    ensures Above(flags, i) == (if PropertyOrder[i] in flags then {PropertyOrder[i]} else {}) + Above(flags, i + 1)
  {
    PositionOfOrder(i);
    forall a | a in Above(flags, i) && a !in Above(flags, i + 1)
      ensures a == PropertyOrder[i]
    {
    }
  }

  /** Every properties octet is the encoding of the flags it decodes to. */
  lemma PropertiesRoundTrip(properties: int)
    requires 0 <= properties < 256
    ensures EncodeProperties(DecodeProperties(properties)) == properties
  {
    assert Pow2(8) == 256;
    EncodeDecodeBits(properties, 0);
  }

  /** Every set of access flags survives encoding into a properties octet. */
  lemma FlagsRoundTrip(flags: set<AccessType>)
    ensures 0 <= EncodeProperties(flags) < 256
    ensures DecodeProperties(EncodeProperties(flags)) == flags
  {
    assert Pow2(8) == 256;
    DecodeEncodeBits(flags, 0);
    assert Above(flags, 0) == flags;
  }

  /** The bit layout of section 3.3.1.1: an access type is in the flags of
      a properties octet exactly when the octet's bit at its position is set. */
  lemma PropertyBits(properties: int, a: AccessType)
    ensures a in DecodeProperties(properties) <==> (UnsignedByte(properties) / Pow2(Position(a))) % 2 == 1
  {
    DecodeBitsHas(UnsignedByte(properties), 0, a);
  }

  /** `DecodeBits(bits, i)` holds `a` exactly when bit `Position(a) - i` of
      `bits` is set. */
  lemma {:induction false} DecodeBitsHas(bits: nat, i: nat, a: AccessType)
    requires i <= Position(a)
    ensures a in DecodeBits(bits, i) <==> (bits / Pow2(Position(a) - i)) % 2 == 1
    decreases 8 - i
  {
    PositionOfOrder(i);
    var here := if bits % 2 == 1 then {PropertyOrder[i]} else {};
    var rest := DecodeBits(bits / 2, i + 1);
    assert DecodeBits(bits, i) == here + rest;
    if i == Position(a) {
      assert a !in rest;
      assert bits / Pow2(0) == bits;
    } else {
      assert a !in here;
      DecodeBitsHas(bits / 2, i + 1, a);
      var m := Pow2(Position(a) - i - 1);
      assert Pow2(Position(a) - i) == 2 * m;
      HalveThenDivide(bits, m);
    }
  }

  /** Halving, then dividing by `m`, divides by `2 * m`. */
  lemma HalveThenDivide(x: nat, m: nat)
    requires m >= 1
    ensures (x / 2) / m == x / (2 * m)
  {
    var a := x / 2;
    var y := a / m;
    assert m * y <= a < m * y + m;
    assert 2 * m * y <= x < 2 * m * y + 2 * m;
    DivideBetween(x, 2 * m, y);
  }

  /** The quotient is the `y` with `d * y <= x < d * y + d`. */
  lemma DivideBetween(x: nat, d: nat, y: nat)
    requires d >= 1 && d * y <= x < d * y + d
    ensures x / d == y
  {
    var q := x / d;
    assert x == d * q + x % d;
    if q > y {
      MultiplyMonotone(d, y + 1, q);
      assert false;
    } else if q < y {
      MultiplyMonotone(d, q + 1, y);
      assert false;
    }
  }

  lemma MultiplyMonotone(d: nat, a: nat, b: nat)
    requires a <= b
    ensures d * a <= d * b
  {
    assert d * b == d * a + d * (b - a);
  }

  /** The value of a characteristic declaration (Core Specification Vol 3,
      Part G, section 3.3.1): a properties octet, the characteristic value
      handle and the characteristic UUID. */
  datatype Declaration = Declaration(properties: int, valueHandle: nat, uuid: Uuid)

  /** A UUID is 2 or 16 octets long on the air. */
  predicate IsUuidWidth(width: int) {
    width == 2 || width == 16
  }

  /** Reads a declaration value: properties octet, little-endian value handle,
      little-endian UUID. A value of any other length is not a declaration. */
  function ParseDeclaration(value: seq<int>): (d: Option<Declaration>)
    ensures d.Some? <==> IsUuidWidth(|value| - 3)
    ensures d.Some? ==> 0 <= d.value.properties < 256 && d.value.valueHandle < 65536
  {
    if !IsUuidWidth(|value| - 3) then None
    else Some(Declaration(UnsignedByte(value[0]), LittleEndian(value[1..3]), LittleEndian(value[3..])))
  }

  /** The declaration value with a UUID of `width` octets. */
  function EncodeDeclaration(d: Declaration, width: int): (value: seq<int>)
    requires IsUuidWidth(width)
  {
    [UnsignedByte(d.properties)] + ToLittleEndian(d.valueHandle, 2) + ToLittleEndian(d.uuid, width)
  }

  /** A declaration whose fields fit their octets survives encoding. */
  lemma DeclarationRoundTrip(d: Declaration, width: int)
    requires IsUuidWidth(width)
    requires 0 <= d.properties < 256 && d.valueHandle < 65536 && d.uuid < Pow256(width)
    ensures ParseDeclaration(EncodeDeclaration(d, width)) == Some(d)
  {
    var value := EncodeDeclaration(d, width);
    assert Pow256(2) == 65536;
    assert value[1..3] == ToLittleEndian(d.valueHandle, 2);
    assert value[3..] == ToLittleEndian(d.uuid, width);
    LittleEndianRoundTrip(d.valueHandle, 2);
    LittleEndianRoundTrip(d.uuid, width);
  }

  /** Every declaration value is the encoding of what it parses to. */
  lemma DeclarationValueRoundTrip(value: seq<int>)
    requires IsBytes(value) && IsUuidWidth(|value| - 3)
    ensures EncodeDeclaration(ParseDeclaration(value).value, |value| - 3) == value
  {
    assert IsBytes(value[1..3]) && IsBytes(value[3..]);
    LittleEndianInverse(value[1..3]);
    LittleEndianInverse(value[3..]);
    assert value == [value[0]] + value[1..3] + value[3..];
  }

  /** A characteristic: its type, its attribute handle and its access flags. */
  datatype Characteristic = Characteristic(uuid: Uuid, handle: int, flags: set<AccessType>)

  /** A primary service, the handle range it spans and its characteristics. */
  datatype Service = Service(uuid: Uuid, start: int, end: int, characteristics: seq<Characteristic>)

  /** The service's handle range holds `handle`. */
  predicate Covers(s: Service, handle: int) {
    s.start <= handle <= s.end
  }

  /** The services of the group-found events, not yet populated. */
  function ServicesOf(groups: seq<GroupFound>): seq<Service> {
    seq(|groups|, k requires 0 <= k < |groups| => Service(groups[k].uuid, groups[k].start, groups[k].end, []))
  }

  /** The first service whose handle range holds `handle`. */
  function ServiceIndexFor(services: seq<Service>, handle: int): (k: Option<nat>)
    ensures k.Some? ==> k.value < |services| && Covers(services[k.value], handle)
    ensures k.Some? ==> forall j :: 0 <= j < k.value ==> !Covers(services[j], handle)
    ensures k.None? <==> forall j :: 0 <= j < |services| ==> !Covers(services[j], handle)
  {
    if services == [] then None
    else if Covers(services[0], handle) then Some(0)
    else
      match ServiceIndexFor(services[1..], handle)
      case None => None
      case Some(k) => Some(k + 1)
  }

  /** Handle ranges that do not overlap. */
  predicate Disjoint(services: seq<Service>) {
    forall j, k :: 0 <= j < k < |services| ==> services[j].end < services[k].start || services[k].end < services[j].start
  }

  /** With disjoint ranges the service found for a handle is the one service
      whose range holds it. */
  lemma UniqueCover(services: seq<Service>, handle: int, k: nat)
    requires Disjoint(services)
    requires k < |services| && Covers(services[k], handle)
    ensures ServiceIndexFor(services, handle) == Some(k)
  {
  }

  /** The information-found entries that become characteristics: primary
      service declarations and client characteristic configuration
      descriptors do not. */
  predicate Kept(info: InformationFound) {
    info.uuid != PrimaryServiceUuid && info.uuid != ClientCharacteristicConfigurationUuid
  }

  /** The same services, in the same order, over the same ranges. */
  predicate SameRanges(a: seq<Service>, b: seq<Service>) {
    && |a| == |b|
    && forall k :: 0 <= k < |a| ==> a[k].uuid == b[k].uuid && a[k].start == b[k].start && a[k].end == b[k].end
  }

  /** Characteristic discovery: each kept entry, in arrival order, becomes a
      characteristic of the first service whose range holds its handle; an
      entry no service holds is dropped. */
  function Attach(services: seq<Service>, infos: seq<InformationFound>): (r: seq<Service>)
    ensures SameRanges(r, services)
    decreases |infos|
  {
    if infos == [] then services
    else
      var before := Attach(services, infos[..|infos| - 1]);
      var info := infos[|infos| - 1];
      if !Kept(info) then before
      else
        match ServiceIndexFor(services, info.handle)
        case None => before
        case Some(k) =>
          before[k := before[k].(characteristics := before[k].characteristics + [Characteristic(info.uuid, info.handle, {})])]
  }

  /** Reference definition: the characteristics the entries give service
      `k`, each kept, inside the service's range and without flags. */
  function AssignedTo(services: seq<Service>, infos: seq<InformationFound>, k: nat): (cs: seq<Characteristic>)
    requires k < |services|
    ensures forall i :: 0 <= i < |cs| ==>
      && cs[i].uuid != PrimaryServiceUuid && cs[i].uuid != ClientCharacteristicConfigurationUuid
      && Covers(services[k], cs[i].handle)
      && cs[i].flags == {}
  {
    if infos == [] then []
    else
      (if Kept(infos[0]) && ServiceIndexFor(services, infos[0].handle) == Some(k)
       then [Characteristic(infos[0].uuid, infos[0].handle, {})] else [])
      + AssignedTo(services, infos[1..], k)
  }

  lemma {:induction false} AssignedToAppend(services: seq<Service>, infos: seq<InformationFound>, info: InformationFound, k: nat)
    requires k < |services|
    ensures AssignedTo(services, infos + [info], k) ==
      AssignedTo(services, infos, k) + AssignedTo(services, [info], k)
    decreases |infos|
  {
    if infos != [] {
      assert (infos + [info])[1..] == infos[1..] + [info];
      AssignedToAppend(services, infos[1..], info, k);
    } else {
      assert infos + [info] == [info];
    }
  }

  /** Characteristic discovery appends to each service exactly the
      characteristics expected to it, in arrival order. */
  lemma {:induction false} AttachAssigns(services: seq<Service>, infos: seq<InformationFound>)
    ensures forall k :: 0 <= k < |services| ==>
      Attach(services, infos)[k].characteristics == services[k].characteristics + AssignedTo(services, infos, k)
    decreases |infos|
  {
    if infos != [] {
      var init := infos[..|infos| - 1];
      var info := infos[|infos| - 1];
      AttachAssigns(services, init);
      assert infos == init + [info];
      forall k | 0 <= k < |services|
        ensures Attach(services, infos)[k].characteristics == services[k].characteristics + AssignedTo(services, infos, k)
      {
        AssignedToAppend(services, init, info, k);
        assert [info][1..] == [];
      }
    }
  }

  /** The characteristics with their flags cleared: what discovery fixed
      before declarations were read. */
  function Erase(cs: seq<Characteristic>): seq<Characteristic> {
    seq(|cs|, i requires 0 <= i < |cs| => cs[i].(flags := {}))
  }

  /** Sets the flags of every characteristic of type `uuid`. */
  function SetFlags(cs: seq<Characteristic>, uuid: Uuid, flags: set<AccessType>): seq<Characteristic> {
    seq(|cs|, i requires 0 <= i < |cs| => if cs[i].uuid == uuid then cs[i].(flags := flags) else cs[i])
  }

  /** The same services, ranges and characteristics, up to access flags. */
  predicate SameShape(a: seq<Service>, b: seq<Service>) {
    && SameRanges(a, b)
    && forall k :: 0 <= k < |a| ==> Erase(a[k].characteristics) == Erase(b[k].characteristics)
  }

  /** A characteristic's flags are empty or were read from a declaration of
      its type found inside its service's range. */
  predicate FlagsJustified(s: Service, c: Characteristic, values: seq<AttributeValue>) {
    c.flags == {} ||
    exists v :: v in values && Declares(s, c, v)
  }

  /** `v` is a declaration of `c`'s type inside `s` whose properties are `c`'s flags. */
  predicate Declares(s: Service, c: Characteristic, v: AttributeValue) {
    && ParseDeclaration(v.value).Some?
    && ParseDeclaration(v.value).value.uuid == c.uuid
    && Covers(s, v.attHandle)
    && c.flags == DecodeProperties(ParseDeclaration(v.value).value.properties)
  }

  /** Every characteristic's flags are justified by `values`. */
  predicate AllFlagsJustified(services: seq<Service>, values: seq<AttributeValue>) {
    forall k, i :: 0 <= k < |services| && 0 <= i < |services[k].characteristics| ==>
      FlagsJustified(services[k], services[k].characteristics[i], values)
  }

  /** Declaration discovery for one value: the declaration is matched to the
      service whose range holds its attribute handle, and inside it to the
      characteristics of the declared UUID, which take the declared
      properties as their access flags. A value that is not a declaration, or
      that no service holds, changes nothing. */
  function ApplyDeclaration(services: seq<Service>, v: AttributeValue): seq<Service> {
    match ParseDeclaration(v.value)
    case None => services
    case Some(d) =>
      match ServiceIndexFor(services, v.attHandle)
      case None => services
      case Some(k) =>
        services[k := services[k].(characteristics := SetFlags(services[k].characteristics, d.uuid, DecodeProperties(d.properties)))]
  }

  /** `v` is a declaration of type `uuid` whose attribute handle falls to
      service `k`. */
  predicate DeclaresIn(services: seq<Service>, v: AttributeValue, k: nat, uuid: Uuid) {
    && ParseDeclaration(v.value).Some?
    && ParseDeclaration(v.value).value.uuid == uuid
    && ServiceIndexFor(services, v.attHandle) == Some(k)
  }

  /** The access flags a declaration value declares. */
  function PropertiesOf(v: AttributeValue): set<AccessType>
    requires ParseDeclaration(v.value).Some?
  {
    DecodeProperties(ParseDeclaration(v.value).value.properties)
  }

  /** Value `j` declares type `uuid` in service `k` and no later value does. */
  predicate IsLastDeclaration(services: seq<Service>, values: seq<AttributeValue>, k: nat, uuid: Uuid, j: int)
    requires 0 <= j < |values|
  {
    && DeclaresIn(services, values[j], k, uuid)
    && forall i :: j < i < |values| ==> !DeclaresIn(services, values[i], k, uuid)
  }

  /** Some value declares type `uuid` in service `k`. */
  predicate AnyDeclares(services: seq<Service>, values: seq<AttributeValue>, k: nat, uuid: Uuid) {
    exists j :: 0 <= j < |values| && DeclaresIn(services, values[j], k, uuid)
  }

  /** Reference definition: the access flags that the last declaration of
      type `uuid` falling to service `k` gives, if any does. */
  function DeclaredFlags(services: seq<Service>, values: seq<AttributeValue>, k: nat, uuid: Uuid): Option<set<AccessType>>
    decreases |values|
  {
    if values == [] then None
    else
      var v := values[|values| - 1];
      var earlier := values[..|values| - 1];
      if DeclaresIn(services, v, k, uuid) then Some(PropertiesOf(v))
      else DeclaredFlags(services, earlier, k, uuid)
  }

  /** Flags are declared exactly when some declaration of the type falls to the service. */
  lemma {:induction false} DeclaredFlagsPresent(services: seq<Service>, values: seq<AttributeValue>, k: nat, uuid: Uuid)
    ensures DeclaredFlags(services, values, k, uuid).Some? <==> AnyDeclares(services, values, k, uuid)
    decreases |values|
  {
    if values != [] {
      var earlier := values[..|values| - 1];
      DeclaredFlagsPresent(services, earlier, k, uuid);
      assert forall j :: 0 <= j < |earlier| ==> earlier[j] == values[j];
      if !DeclaresIn(services, values[|values| - 1], k, uuid) && AnyDeclares(services, values, k, uuid) {
        var j :| 0 <= j < |values| && DeclaresIn(services, values[j], k, uuid);
        assert DeclaresIn(services, earlier[j], k, uuid);
      }
    }
  }

  /** The declared flags are those of the last matching declaration. */
  lemma LastDeclarationWins(services: seq<Service>, values: seq<AttributeValue>, k: nat, uuid: Uuid, j: int)
    requires 0 <= j < |values| && IsLastDeclaration(services, values, k, uuid, j)
    ensures DeclaredFlags(services, values, k, uuid) == Some(PropertiesOf(values[j]))
  {
    LastDeclarationWinsUpTo(services, values, k, uuid, j, |values|);
    assert values[..|values|] == values;
  }

  /** `LastDeclarationWins` for the first `m` values. */
  lemma {:induction false} LastDeclarationWinsUpTo(services: seq<Service>, values: seq<AttributeValue>, k: nat, uuid: Uuid, j: int, m: int)
    requires 0 <= j < m <= |values|
    requires DeclaresIn(services, values[j], k, uuid)
    requires forall i :: j < i < m ==> !DeclaresIn(services, values[i], k, uuid)
    ensures DeclaredFlags(services, values[..m], k, uuid) == Some(PropertiesOf(values[j]))
    decreases m
  {
    var prefix := values[..m];
    DeclaredFlagsUnfolds(services, prefix, k, uuid);
    assert prefix[m - 1] == values[m - 1];
    if j < m - 1 {
      assert prefix[..m - 1] == values[..m - 1];
      LastDeclarationWinsUpTo(services, values, k, uuid, j, m - 1);
    }
  }

  lemma DeclaredFlagsUnfolds(services: seq<Service>, values: seq<AttributeValue>, k: nat, uuid: Uuid)
    requires values != []
    ensures DeclaredFlags(services, values, k, uuid) ==
      if DeclaresIn(services, values[|values| - 1], k, uuid) then Some(PropertiesOf(values[|values| - 1]))
      else DeclaredFlags(services, values[..|values| - 1], k, uuid)
  {
  }

  /** Every characteristic of `services` has in `r` the flags the last
      matching declaration among `values` gives it, and its own flags when no
      declaration matches. */
  predicate FlagsAsDeclared(r: seq<Service>, services: seq<Service>, values: seq<AttributeValue>) {
    forall k, i :: 0 <= k < |services| && 0 <= i < |services[k].characteristics| ==>
      && k < |r| && i < |r[k].characteristics|
      && r[k].characteristics[i].flags ==
           DeclaredFlags(services, values, k, services[k].characteristics[i].uuid).GetOr(services[k].characteristics[i].flags)
  }

  /** Declaration discovery over all values, in arrival order. */
  function ApplyDeclarations(services: seq<Service>, values: seq<AttributeValue>): (r: seq<Service>)
    ensures SameShape(r, services)
    ensures FlagsAsDeclared(r, services, values)
    ensures AllFlagsJustified(services, []) ==> AllFlagsJustified(r, values)
    decreases |values|
  {
    if values == [] then services
    else
      var before := ApplyDeclarations(services, values[..|values| - 1]);
      ApplyDeclarationKeepsShape(before, values[|values| - 1]);
      ApplyDeclarationJustifies(before, values);
      ApplyDeclarationSetsFlags(services, before, values);
      ApplyDeclaration(before, values[|values| - 1])
  }

  /** Only the handle ranges decide which service a handle falls to. */
  lemma {:induction false} ServiceIndexSameRanges(a: seq<Service>, b: seq<Service>, handle: int)
    requires SameRanges(a, b)
    ensures ServiceIndexFor(a, handle) == ServiceIndexFor(b, handle)
    decreases |a|
  {
    if a != [] {
      assert SameRanges(a[1..], b[1..]) by {
        forall k | 0 <= k < |a[1..]|
          ensures a[1..][k].start == b[1..][k].start && a[1..][k].end == b[1..][k].end
        {
          assert a[1..][k] == a[k + 1] && b[1..][k] == b[k + 1];
        }
      }
      ServiceIndexSameRanges(a[1..], b[1..], handle);
    }
  }

  /** Only the handle ranges decide which declarations match. */
  lemma {:induction false} DeclaredFlagsSameRanges(a: seq<Service>, b: seq<Service>, values: seq<AttributeValue>, k: nat, uuid: Uuid)
    requires SameRanges(a, b)
    ensures DeclaredFlags(a, values, k, uuid) == DeclaredFlags(b, values, k, uuid)
    decreases |values|
  {
    if values != [] {
      ServiceIndexSameRanges(a, b, values[|values| - 1].attHandle);
      DeclaredFlagsSameRanges(a, b, values[..|values| - 1], k, uuid);
    }
  }

  /** One more declaration keeps every characteristic's flags as declared. */
  lemma ApplyDeclarationSetsFlags(services: seq<Service>, before: seq<Service>, values: seq<AttributeValue>)
    requires values != []
    requires SameShape(before, services)
    requires FlagsAsDeclared(before, services, values[..|values| - 1])
    ensures FlagsAsDeclared(ApplyDeclaration(before, values[|values| - 1]), services, values)
  {
    var v := values[|values| - 1];
    var r := ApplyDeclaration(before, v);
    ApplyDeclarationKeepsShape(before, v);
    ServiceIndexSameRanges(before, services, v.attHandle);
    forall k, i | 0 <= k < |services| && 0 <= i < |services[k].characteristics|
      ensures k < |r| && i < |r[k].characteristics|
      ensures r[k].characteristics[i].flags ==
        DeclaredFlags(services, values, k, services[k].characteristics[i].uuid).GetOr(services[k].characteristics[i].flags)
    {
      var c := services[k].characteristics[i];
      assert |Erase(before[k].characteristics)| == |before[k].characteristics|;
      assert |Erase(r[k].characteristics)| == |r[k].characteristics|;
      assert Erase(before[k].characteristics)[i] == Erase(services[k].characteristics)[i];
      assert before[k].characteristics[i].uuid == c.uuid;
    }
  }

  lemma ApplyDeclarationKeepsShape(services: seq<Service>, v: AttributeValue)
    ensures SameShape(ApplyDeclaration(services, v), services)
  {
    var r := ApplyDeclaration(services, v);
    forall k | 0 <= k < |r|
      ensures Erase(r[k].characteristics) == Erase(services[k].characteristics)
    {
    }
  }

  lemma ApplyDeclarationJustifies(services: seq<Service>, values: seq<AttributeValue>)
    requires values != []
    ensures AllFlagsJustified(services, values[..|values| - 1]) ==>
      AllFlagsJustified(ApplyDeclaration(services, values[|values| - 1]), values)
  {
    var earlier := values[..|values| - 1];
    var v := values[|values| - 1];
    if !AllFlagsJustified(services, earlier) {
      return;
    }
    var r := ApplyDeclaration(services, v);
    assert earlier + [v] == values;
    forall k, i | 0 <= k < |r| && 0 <= i < |r[k].characteristics|
      ensures FlagsJustified(r[k], r[k].characteristics[i], values)
    {
      var c := r[k].characteristics[i];
      if c != services[k].characteristics[i] {
        assert Declares(r[k], c, v);
        assert v in values;
      } else if c.flags != {} {
        var w :| w in earlier && Declares(services[k], c, w);
        assert w in values;
        assert Declares(r[k], c, w);
      }
    }
  }

  /** The whole GATT model of one connection: services from the group-found
      events, then characteristics, then access flags. */
  function Build(groups: seq<GroupFound>, infos: seq<InformationFound>, values: seq<AttributeValue>): seq<Service> {
    ApplyDeclarations(Attach(ServicesOf(groups), infos), values)
  }

  /** What discovery promises about the model: one service per group with its
      range, in each service exactly the kept characteristics expected to it
      (each inside the range), and flags only from a matching declaration. */
  lemma BuildPlacesCharacteristics(groups: seq<GroupFound>, infos: seq<InformationFound>, values: seq<AttributeValue>)
    ensures var r := Build(groups, infos, values);
      && |r| == |groups|
      && (forall k :: 0 <= k < |r| ==> r[k].uuid == groups[k].uuid && r[k].start == groups[k].start && r[k].end == groups[k].end)
      && (forall k :: 0 <= k < |r| ==> Erase(r[k].characteristics) == AssignedTo(ServicesOf(groups), infos, k))
      && (forall k, i :: 0 <= k < |r| && 0 <= i < |r[k].characteristics| ==>
            Kept(InformationFound(r[k].characteristics[i].uuid, r[k].characteristics[i].handle)) &&
            Covers(r[k], r[k].characteristics[i].handle))
      && AllFlagsJustified(r, values)
      && (forall k, i :: 0 <= k < |r| && 0 <= i < |r[k].characteristics| ==>
            r[k].characteristics[i].flags == DeclaredFlags(ServicesOf(groups), values, k, r[k].characteristics[i].uuid).GetOr({}))
  {
    var services := ServicesOf(groups);
    var attached := Attach(services, infos);
    var r := Build(groups, infos, values);
    AttachAssigns(services, infos);
    forall k | 0 <= k < |r|
      ensures Erase(r[k].characteristics) == AssignedTo(services, infos, k)
    {
      var expected := AssignedTo(services, infos, k);
      assert attached[k].characteristics == expected;
      assert Erase(expected) == expected;
    }
    forall k, i | 0 <= k < |r| && 0 <= i < |r[k].characteristics|
      ensures Kept(InformationFound(r[k].characteristics[i].uuid, r[k].characteristics[i].handle))
      ensures Covers(r[k], r[k].characteristics[i].handle)
    {
      var expected := AssignedTo(services, infos, k);
      assert Erase(r[k].characteristics)[i] == expected[i];
    }
    forall k, i | 0 <= k < |r| && 0 <= i < |r[k].characteristics|
      ensures r[k].characteristics[i].flags == DeclaredFlags(services, values, k, r[k].characteristics[i].uuid).GetOr({})
    {
      var c := attached[k].characteristics[i];
      assert Erase(r[k].characteristics)[i] == Erase(attached[k].characteristics)[i];
      assert attached[k].characteristics == AssignedTo(services, infos, k);
      assert c.flags == {};
      DeclaredFlagsSameRanges(attached, services, values, k, c.uuid);
    }
    assert AllFlagsJustified(attached, []) by {
      forall k, i | 0 <= k < |attached| && 0 <= i < |attached[k].characteristics|
        ensures attached[k].characteristics[i].flags == {}
      {
        assert attached[k].characteristics == AssignedTo(services, infos, k);
      }
    }
  }
}

=== FILE: handler.dfy ===
/** The boundary to the shared dongle handler: the calls a device makes on
    it, the replies it gives, and the events it pushes to every device. The
    serial transport and the BGAPI command encoding behind it are not part of
    this model; a call's reply is taken from a `Replies` snapshot. */
module Handler {
  import opened Wrappers
  import Gatt

  /** The address type a device connects with. */
  datatype AddressType = UnknownAddress | PublicAddress | RandomAddress

  /** The address type a scan response reports: public (0), random (1), or
      `GapUnknown` for a value the dongle could not classify and for a
      response that carries no address type at all. */
  datatype GapAddressType = GapPublic | GapRandom | GapUnknown

  /** The address type a reported GAP address type stands for. */
  function AddressTypeOf(g: GapAddressType): (a: AddressType)
    ensures g.GapPublic? <==> a.PublicAddress?
    ensures g.GapRandom? <==> a.RandomAddress?
    ensures g.GapUnknown? <==> a.UnknownAddress?
  {
    match g
    case GapPublic => PublicAddress
    case GapRandom => RandomAddress
    case GapUnknown => UnknownAddress
  }

  /** A device's identity: the adapter it is seen through and its own address. */
  datatype DeviceUrl = DeviceUrl(adapter: string, device: string)

  /** A connection-status reply: the connection handle and the address of the
      peripheral at the other end. */
  datatype ConnectionStatus = ConnectionStatus(connection: nat, address: string)

  /** Why a connection ended. */
  datatype DisconnectReason = TerminatedByLocalHost | Timeout | OtherReason(code: nat)

  /** The events the handler pushes to every registered device. */
  datatype Event =
    | ScanResponse(sender: string, data: seq<int>, rssi: int, addressType: GapAddressType)
    | Disconnected(connection: nat, reason: DisconnectReason)
    | OtherEvent

  /** The calls a device makes on the handler. */
  datatype Call =
    | IsDiscovering
    | ConnectTo(url: DeviceUrl, addressType: AddressType)
    | StopProcedure
    | StartScanning
    | GetServices(connection: nat)
    | GetCharacteristics(connection: nat)
    | GetDeclarations(connection: nat)
    | DisconnectFrom(connection: nat)
    | GetConnectionStatus(connection: nat)
    | GetRssi(connection: nat)

  /** What the handler answers to each call, for the duration of one
      operation. `status` is `None` when it reports no connection; `Failed`
      stands for a call that raised. */
  datatype Replies = Replies(
    discovering: bool,
    connect: Reply<ConnectionStatus>,
    services: Reply<seq<Gatt.GroupFound>>,
    characteristics: Reply<seq<Gatt.InformationFound>>,
    declarations: Reply<seq<Gatt.AttributeValue>>,
    status: Option<ConnectionStatus>,
    rssi: int,
    disconnected: bool)
}

=== FILE: lifecycle.dfy ===
/** Properties of the device over several operations: the order of the
    connect sequence, what connect and disconnect announce, how the
    connection check, signal strength, address type and disconnect events
    behave across calls, and the isolation of faulty subscribers. */
module Lifecycle {
  import opened Wrappers
  import opened Bytes
  import Advertisement
  import Gatt
  import opened Handler
  import opened Trace
  import opened BluegigaDevice

  /** The phases of a full connect, in order. */
  const ConnectPhases: seq<Step> :=
    [Enter(EstablishConnection), Enter(DiscoverServices), Enter(DiscoverCharacteristics), Enter(DiscoverDeclarations)]

  /** The discovery calls of a full connect on `handle`, in order. */
  function DiscoveryCalls(handle: nat): seq<Step> {
    [Call(GetServices(handle)), Call(GetCharacteristics(handle)), Call(GetDeclarations(handle))]
  }

  /** The calls that establish a connection: the discovery query, the connect
      with the held address type, and the stop-procedure / start-scanning
      workaround only when the connect was accepted while the dongle was
      discovering. */
  function EstablishCalls(d: Device, h: Replies): seq<Step> {
    [Call(IsDiscovering), Call(ConnectTo(d.url, d.addressType))]
    + (if h.connect.Ok? && h.discovering then [Call(StopProcedure), Call(StartScanning)] else [])
  }

  /** The views of one discovery phase: its phase, then its call. */
  lemma PairViews(p: Phase, c: Call)
    ensures View([Enter(p), Call(c)], PhaseKind) == [Enter(p)]
    ensures View([Enter(p), Call(c)], CallKind) == [Call(c)]
    ensures View([Enter(p), Call(c)], NotifyKind) == []
  {
    assert [Enter(p), Call(c)] == [Enter(p)] + [Call(c)];
    ViewsConcat([Enter(p)], [Call(c)]);
    ViewOfOne(Enter(p), PhaseKind);
    ViewOfOne(Enter(p), CallKind);
    ViewOfOne(Enter(p), NotifyKind);
    ViewOfOne(Call(c), PhaseKind);
    ViewOfOne(Call(c), CallKind);
    ViewOfOne(Call(c), NotifyKind);
  }

  /** Discovery phase `n` is phase `n` of a connect and makes call `n`. */
  lemma DiscoveryStep(handle: nat, n: nat)
    requires 1 <= n <= |DiscoveryPhases|
    ensures ConnectPhases[n] == Enter(DiscoveryPhases[n - 1])
    ensures DiscoveryCalls(handle)[n - 1] == Call(DiscoveryCall(DiscoveryPhases[n - 1], handle))
  {
  }

  /** The views of the first `n` discovery phases: their phases in order,
      their calls in order, no notification. */
  lemma {:induction false} DiscoveryViews(handle: nat, n: nat)
    requires n <= |DiscoveryPhases|
    ensures View(Discovery(handle, n), PhaseKind) == ConnectPhases[1..n + 1]
    ensures View(Discovery(handle, n), CallKind) == DiscoveryCalls(handle)[..n]
    ensures View(Discovery(handle, n), NotifyKind) == []
  {
    if n > 0 {
      var p := DiscoveryPhases[n - 1];
      var c := DiscoveryCall(p, handle);
      var init := Discovery(handle, n - 1);
      assert Discovery(handle, n) == init + [Enter(p), Call(c)];
      DiscoveryViews(handle, n - 1);
      ViewsConcat(init, [Enter(p), Call(c)]);
      PairViews(p, c);
      DiscoveryStep(handle, n);
      SliceGrows(ConnectPhases, 1, n + 1);
      SliceGrows(DiscoveryCalls(handle), 0, n);
    }
  }

  /** The views of two calls in a row. */
  lemma CallPairViews(a: Call, b: Call)
    ensures View([Call(a), Call(b)], PhaseKind) == []
    ensures View([Call(a), Call(b)], CallKind) == [Call(a), Call(b)]
    ensures View([Call(a), Call(b)], NotifyKind) == []
  {
    assert [Call(a), Call(b)] == [Call(a)] + [Call(b)];
    ViewsConcat([Call(a)], [Call(b)]);
    ViewOfOne(Call(a), PhaseKind);
    ViewOfOne(Call(a), CallKind);
    ViewOfOne(Call(a), NotifyKind);
    ViewOfOne(Call(b), PhaseKind);
    ViewOfOne(Call(b), CallKind);
    ViewOfOne(Call(b), NotifyKind);
  }

  /** The views of entering the establish phase and connecting. */
  lemma StartViews(d: Device)
    ensures var start := [Enter(EstablishConnection), Call(IsDiscovering), Call(ConnectTo(d.url, d.addressType))];
      && View(start, PhaseKind) == [Enter(EstablishConnection)]
      && View(start, CallKind) == [Call(IsDiscovering), Call(ConnectTo(d.url, d.addressType))]
      && View(start, NotifyKind) == []
  {
    var connect := [Call(IsDiscovering), Call(ConnectTo(d.url, d.addressType))];
    assert [Enter(EstablishConnection), Call(IsDiscovering), Call(ConnectTo(d.url, d.addressType))]
      == [Enter(EstablishConnection)] + connect;
    ViewsConcat([Enter(EstablishConnection)], connect);
    CallPairViews(IsDiscovering, ConnectTo(d.url, d.addressType));
    ViewOfOne(Enter(EstablishConnection), PhaseKind);
    ViewOfOne(Enter(EstablishConnection), CallKind);
    ViewOfOne(Enter(EstablishConnection), NotifyKind);
  }

  /** The views of establishing a connection. */
  lemma EstablishViews(d: Device, h: Replies)
    ensures View(Establish(d, h), PhaseKind) == [Enter(EstablishConnection)]
    ensures View(Establish(d, h), CallKind) == EstablishCalls(d, h)
    ensures View(Establish(d, h), NotifyKind) == []
  {
    var start := [Enter(EstablishConnection), Call(IsDiscovering), Call(ConnectTo(d.url, d.addressType))];
    StartViews(d);
    if h.connect.Ok? && h.discovering {
      var workaround := [Call(StopProcedure), Call(StartScanning)];
      assert Establish(d, h) == start + workaround;
      ViewsConcat(start, workaround);
      CallPairViews(StopProcedure, StartScanning);
    } else {
      assert Establish(d, h) == start;
    }
  }

  /** The views of a connect up to its first failure: establish and the
      discovery phases that ran, with their calls, and no notification. */
  lemma {:induction false} AttemptViews(d: Device, h: Replies)
    ensures View(Attempt(d, h), PhaseKind) == ConnectPhases[..Attempted(h) + 1]
    ensures View(Attempt(d, h), CallKind) ==
      EstablishCalls(d, h) + (if h.connect.Ok? then DiscoveryCalls(h.connect.value.connection)[..Attempted(h)] else [])
    ensures View(Attempt(d, h), NotifyKind) == []
  {
    var n := Attempted(h);
    var disc := if h.connect.Ok? then Discovery(h.connect.value.connection, n) else [];
    EstablishViews(d, h);
    ViewsConcat(Establish(d, h), disc);
    if h.connect.Ok? {
      DiscoveryViews(h.connect.value.connection, n);
    } else {
      assert View(disc, PhaseKind) == [] && View(disc, CallKind) == [] && View(disc, NotifyKind) == [];
    }
    assert ConnectPhases[..n + 1] == [Enter(EstablishConnection)] + ConnectPhases[1..n + 1];
  }

  /** The calls of a successful connect, in order: establishing the
      connection, then services, characteristics and declarations of the new
      handle. */
  function ConnectCalls(d: Device, h: Replies): seq<Step>
    requires h.connect.Ok?
  {
    EstablishCalls(d, h) + DiscoveryCalls(h.connect.value.connection)
  }

  /** A successful connect runs establish, discover services, discover
      characteristics and discover declarations, exactly and in this order,
      makes exactly the calls of `ConnectCalls`, and delivers connected and
      services-resolved true to whoever subscribes. */
  lemma {:induction false} ConnectOrder(d: Device, h: Replies)
    requires ConnectSucceeds(h)
    ensures View(Connect(d, h).trace, PhaseKind) == ConnectPhases
    ensures View(Connect(d, h).trace, CallKind) == ConnectCalls(d, h)
    ensures View(Connect(d, h).trace, NotifyKind) == Announcements(d.subscriptions, true)
  {
    var a := Announce(d.subscriptions, true);
    assert Connect(d, h).trace == Attempt(d, h) + a;
    AttemptViews(d, h);
    ViewsConcat(Attempt(d, h), a);
    assert DiscoveryCalls(h.connect.value.connection)[..3] == DiscoveryCalls(h.connect.value.connection);
  }

  /** A failed connect stops at the phase whose call raised: it enters only
      the phases up to that one, makes only their calls, and announces
      nothing. A raising connect call ends it in the establish phase. */
  lemma {:induction false} ConnectStopsAtFailure(d: Device, h: Replies)
    requires !ConnectSucceeds(h)
    ensures h.connect.Failed? ==> View(Connect(d, h).trace, PhaseKind) == [Enter(EstablishConnection)]
    ensures View(Connect(d, h).trace, PhaseKind) == ConnectPhases[..Attempted(h) + 1]
    ensures View(Connect(d, h).trace, CallKind) == EstablishCalls(d, h)
      + (if h.connect.Ok? then DiscoveryCalls(h.connect.value.connection)[..Attempted(h)] else [])
    ensures View(Connect(d, h).trace, NotifyKind) == []
  {
    assert Connect(d, h).trace == Attempt(d, h);
    AttemptViews(d, h);
  }

  /** Every connect, successful or not, first asks whether the dongle is
      discovering and then connects with the address type it holds. */
  lemma ConnectStartsByConnecting(d: Device, h: Replies)
    ensures |View(Connect(d, h).trace, CallKind)| >= 2
    ensures View(Connect(d, h).trace, CallKind)[..2] == [Call(IsDiscovering), Call(ConnectTo(d.url, d.addressType))]
  {
    if ConnectSucceeds(h) {
      ConnectOrder(d, h);
    } else {
      ConnectStopsAtFailure(d, h);
    }
  }

  /** After a successful connect the device is connected exactly while the
      handler's status reply names this device, and it holds the handle the
      connect reply gave. */
  lemma ConnectedAfterConnect(d: Device, h: Replies, later: Replies)
    requires ConnectSucceeds(h)
    ensures Connect(d, h).device.connection == Some(h.connect.value.connection)
    ensures IsConnected(Connect(d, h).device, later).value <==>
      later.status.Some? && later.status.value.address == d.url.device
  {
  }

  /** A device is not connected before its first connect, after a failed
      connect and after a disconnect, whatever the handler reports, and
      checking makes no handler call then. */
  lemma NotConnectedWithoutHandle(url: DeviceUrl, d: Device, h: Replies, later: Replies)
    ensures IsConnected(Create(url), later) == Answer(false, [])
    ensures !ConnectSucceeds(h) ==> IsConnected(Connect(d, h).device, later) == Answer(false, [])
    ensures IsConnected(Disconnect(d, h).device, later).value == false
  {
  }

  /** Disconnecting a connected device sends one disconnect for its handle and
      announces connected and services-resolved false to whoever subscribes,
      also when a subscriber raises; it succeeds when the handler
      acknowledges. */
  lemma {:induction false} DisconnectAnnounces(d: Device, h: Replies)
    requires d.connection.Some?
    ensures var o := Disconnect(d, h);
      && View(o.trace, CallKind) == [Call(DisconnectFrom(d.connection.value))]
      && View(o.trace, NotifyKind) == Announcements(d.subscriptions, false)
      && (o.result <==> h.disconnected)
  {
    var call := Call(DisconnectFrom(d.connection.value));
    var a := Announce(d.subscriptions, false);
    ViewConcat([call], a, CallKind);
    ViewConcat([call], a, NotifyKind);
    ViewOfOne(call, CallKind);
    ViewOfOne(call, NotifyKind);
  }

  /** The events a device acts on: a scan response it sent itself, and a
      disconnect of the connection handle it holds. */
  predicate ConcernsDevice(d: Device, e: Event) {
    || (e.ScanResponse? && e.sender == d.url.device)
    || (e.Disconnected? && d.connection == Some(e.connection))
  }

  /** Every other event is ignored: a scan response from another device, a
      disconnect of another handle, or any other event leaves the device as
      it is and delivers nothing. */
  lemma IgnoredEvents(d: Device, e: Event, now: int)
    ensures !ConcernsDevice(d, e) ==> Receive(d, e, now) == Reaction(d, [])
    ensures e.OtherEvent? ==> Receive(d, e, now) == Reaction(d, [])
    ensures e.ScanResponse? && e.sender != d.url.device ==> Receive(d, e, now) == Reaction(d, [])
  {
  }

  /** A disconnect event for another connection handle changes nothing. */
  lemma DisconnectEventOtherHandle(d: Device, connection: nat, reason: DisconnectReason, now: int)
    requires d.connection != Some(connection)
    ensures Receive(d, Disconnected(connection, reason), now) == Reaction(d, [])
  {
  }

  /** A disconnect event for the held handle ends the connection. When the
      local host ended it, nothing is announced (the explicit disconnect
      already did); any other reason announces connected and
      services-resolved false. */
  lemma {:induction false} DisconnectEventOwnHandle(d: Device, reason: DisconnectReason, now: int, later: Replies)
    requires d.connection.Some?
    ensures var r := Receive(d, Disconnected(d.connection.value, reason), now);
      && WithoutConnection(r.device)
      && !IsConnected(r.device, later).value
      && View(r.trace, NotifyKind) == (if reason.TerminatedByLocalHost? then [] else Announcements(d.subscriptions, false))
      && r.device.url == d.url && r.device.alias == d.alias && r.device.subscriptions == d.subscriptions
      && r.device.observed == d.observed && r.device.addressType == d.addressType
  {
  }

  /** Signal strength of a device that is not connected: zero before any
      advertisement; after an advertisement at `heard`, its value while no
      more than the discovery timeout has passed and zero after; in both
      cases without a call to the handler. */
  lemma RssiWhileDisconnected(url: DeviceUrl, d: Device, h: Replies, data: seq<int>, rssi: int,
                              reported: GapAddressType, heard: int, now: int)
    requires d.connection.None?
    ensures Rssi(Create(url), h, now) == Answer(0, [])
    ensures var r := Receive(d, ScanResponse(d.url.device, data, rssi, reported), heard);
      Rssi(r.device, h, now) == Answer(if now - heard <= DiscoveryTimeout then Int16(rssi) else 0, [])
  {
  }

  /** Signal strength of a connected device is the handler's live value. */
  lemma RssiWhileConnected(d: Device, h: Replies, now: int)
    requires IsConnected(d, h).value
    ensures Rssi(d, h, now).value == Int16(h.rssi)
    ensures View(Rssi(d, h, now).trace, CallKind) ==
      [Call(GetConnectionStatus(d.connection.value)), Call(GetRssi(d.connection.value))]
  {
    var t := [Call(GetConnectionStatus(d.connection.value)), Call(GetRssi(d.connection.value))];
    assert Rssi(d, h, now).trace == t;
    ViewOfAll(t, CallKind);
  }

  /** A scan response from this device that reports a known address type;
      a report the dongle could not classify is ignored. */
  predicate ReportsAddressType(url: DeviceUrl, e: Event) {
    e.ScanResponse? && e.sender == url.device && !e.addressType.GapUnknown?
  }

  /** Event `i` is the last one that reports an address type for `url`. */
  predicate IsLastReport(url: DeviceUrl, events: seq<Event>, i: int)
    requires 0 <= i < |events|
  {
    ReportsAddressType(url, events[i]) && forall j :: i < j < |events| ==> !ReportsAddressType(url, events[j])
  }

  /** Only a scan response from the device itself reporting a known address
      type changes the held address type, and then to the reported one. */
  lemma ReceiveAddressType(d: Device, e: Event, now: int)
    ensures Receive(d, e, now).device.addressType ==
      if ReportsAddressType(d.url, e) then AddressTypeOf(e.addressType) else d.addressType
  {
  }

  /** A scan response from the device itself, whatever its payload, notifies
      the 16-bit signal strength to the signal strength subscriber, if any,
      and leaves the connection, the GATT model and the alias as they are. */
  lemma ScanResponseNotifies(d: Device, data: seq<int>, rssi: int, reported: GapAddressType, now: int)
    ensures var r := Receive(d, ScanResponse(d.url.device, data, rssi, reported), now);
      && View(r.trace, NotifyKind) == Expected(d.subscriptions, RssiChannel, Level(Int16(rssi)))
      && r.device.connection == d.connection && r.device.servicesResolved == d.servicesResolved
      && r.device.services == d.services && r.device.alias == d.alias
  {
  }

  /** What a scan response from the device itself teaches it, for every
      payload: name, class of device and Tx power each take the reading of
      the last structure carrying them and are kept when none does; BLE is
      enabled once some structure is a flags structure; the signal strength
      is the reported one, fresh when heard. */
  lemma {:induction false} ScanResponseTeaches(d: Device, data: seq<int>, rssi: int, reported: GapAddressType, now: int)
    ensures var d' := Receive(d, ScanResponse(d.url.device, data, rssi, reported), now).device;
      var ss := Advertisement.Parse(data);
      && (d'.observed.bleEnabled <==>
            d.observed.bleEnabled || exists i :: 0 <= i < |ss| && ss[i].adType == Advertisement.FlagsType)
      && (forall i :: 0 <= i < |ss| && Advertisement.IsLastCarrier(ss, i, Advertisement.NameField) ==>
            Advertisement.ReadingOf(ss[i], Advertisement.NameField) == Some(Advertisement.Named(Name(d'))))
      && ((forall i :: 0 <= i < |ss| ==> Advertisement.ReadingOf(ss[i], Advertisement.NameField).None?) ==>
            Name(d') == Name(d))
      && (forall i :: 0 <= i < |ss| && Advertisement.IsLastCarrier(ss, i, Advertisement.ClassField) ==>
            Advertisement.ReadingOf(ss[i], Advertisement.ClassField) == Some(Advertisement.Number(d'.observed.deviceClass)))
      && ((forall i :: 0 <= i < |ss| ==> Advertisement.ReadingOf(ss[i], Advertisement.ClassField).None?) ==>
            d'.observed.deviceClass == d.observed.deviceClass)
      && (forall i :: 0 <= i < |ss| && Advertisement.IsLastCarrier(ss, i, Advertisement.TxPowerField) ==>
            Advertisement.ReadingOf(ss[i], Advertisement.TxPowerField) == Some(Advertisement.Number(d'.observed.txPower)))
      && ((forall i :: 0 <= i < |ss| ==> Advertisement.ReadingOf(ss[i], Advertisement.TxPowerField).None?) ==>
            d'.observed.txPower == d.observed.txPower)
      && d'.observed.rssi == Int16(rssi) && Fresh(d'.observed, now)
  {
    var ss := Advertisement.Parse(data);
    Advertisement.LastReadingWins(ss, Advertisement.FlagsField);
    Advertisement.LastReadingWins(ss, Advertisement.NameField);
    Advertisement.LastReadingWins(ss, Advertisement.ClassField);
    Advertisement.LastReadingWins(ss, Advertisement.TxPowerField);
  }

  /** The address type follows the latest advertisement that reports one
      (a public address can be followed by a random one), is kept when none
      does, and never falls back to unknown once known. */
  lemma {:induction false} AddressTypeFollowsLatest(d: Device, events: seq<Event>, now: int)
    ensures var d' := ReceiveAll(d, events, now);
      && ((forall i :: 0 <= i < |events| ==> !ReportsAddressType(d.url, events[i])) ==> d'.addressType == d.addressType)
      && (forall i :: 0 <= i < |events| && IsLastReport(d.url, events, i) ==>
            d'.addressType == AddressTypeOf(events[i].addressType))
      && (d.addressType != UnknownAddress ==> d'.addressType != UnknownAddress)
    decreases |events|
  {
    if events != [] {
      var next := Receive(d, events[0], now).device;
      ReceiveAddressType(d, events[0], now);
      AddressTypeFollowsLatest(next, events[1..], now);
      assert forall i :: 1 <= i < |events| ==> events[1..][i - 1] == events[i];
      forall i | 0 <= i < |events| && IsLastReport(d.url, events, i)
        ensures ReceiveAll(d, events, now).addressType == AddressTypeOf(events[i].addressType)
      {
        if i > 0 {
          assert IsLastReport(next.url, events[1..], i - 1);
        } else {
          assert forall j :: 0 <= j < |events[1..]| ==> !ReportsAddressType(next.url, events[1..][j]);
        }
      }
    }
  }

  /** Connect, disconnect and events keep the invariant that a GATT model
      exists only while a handle is held. */
  lemma ValidPreserved(d: Device, h: Replies, e: Event, now: int)
    requires Valid(d)
    ensures Valid(Connect(d, h).device)
    ensures Valid(Disconnect(d, h).device)
    ensures Valid(Receive(d, e, now).device)
  {
  }

  /** No step of `t` is a notification on `ch`. */
  predicate Silent(t: seq<Step>, ch: Channel) {
    forall i :: 0 <= i < |t| ==> !(t[i].Notified? && t[i].channel == ch)
  }

  /** Connect and disconnect announce nothing on a channel nobody subscribes to. */
  lemma AnnouncementsRespectSubscriptions(subs: Subscriptions, ch: Channel, on: bool)
    requires SubscriberOn(subs, ch).None?
    ensures Silent(Announcements(subs, on), ch)
  {
  }

  /** Connect notifies nothing on a channel without a subscriber. */
  lemma ConnectSilentWithoutSubscriber(d: Device, ch: Channel, h: Replies)
    requires SubscriberOn(d.subscriptions, ch).None?
    ensures Silent(View(Connect(d, h).trace, NotifyKind), ch)
  {
    if ConnectSucceeds(h) {
      ConnectOrder(d, h);
      AnnouncementsRespectSubscriptions(d.subscriptions, ch, true);
    } else {
      ConnectStopsAtFailure(d, h);
    }
  }

  /** Disconnect notifies nothing on a channel without a subscriber. */
  lemma DisconnectSilentWithoutSubscriber(d: Device, ch: Channel, h: Replies)
    requires SubscriberOn(d.subscriptions, ch).None?
    ensures Silent(View(Disconnect(d, h).trace, NotifyKind), ch)
  {
    if d.connection.Some? {
      DisconnectAnnounces(d, h);
      AnnouncementsRespectSubscriptions(d.subscriptions, ch, false);
    }
  }

  /** No event notifies anything on a channel without a subscriber. */
  lemma ReceiveSilentWithoutSubscriber(d: Device, ch: Channel, e: Event, now: int)
    requires SubscriberOn(d.subscriptions, ch).None?
    ensures Silent(View(Receive(d, e, now).trace, NotifyKind), ch)
  {
    var r := Receive(d, e, now);
    if e.Disconnected? && d.connection == Some(e.connection) && !e.reason.TerminatedByLocalHost? {
      assert r.trace == Announce(d.subscriptions, false);
      AnnouncementsRespectSubscriptions(d.subscriptions, ch, false);
    } else if e.ScanResponse? && e.sender == d.url.device {
      assert r.trace == Deliver(d.subscriptions, RssiChannel, Level(Int16(e.rssi)));
    } else {
      assert r.trace == [];
    }
  }

  /** The same subscribers on the same channels, whether or not they raise. */
  predicate SameSubscribers(a: Subscriptions, b: Subscriptions) {
    forall ch :: (SubscriberOn(a, ch).Some? <==> SubscriberOn(b, ch).Some?)
  }

  /** A subscriber that raises changes nothing but the recorded fault:
      connect and disconnect return the same result, leave the same state,
      make the same calls and deliver the same notifications. */
  lemma {:induction false} FaultIsolation(d: Device, subs: Subscriptions, h: Replies)
    requires SameSubscribers(d.subscriptions, subs)
    ensures var o := Connect(d, h); var o' := Connect(d.(subscriptions := subs), h);
      && o'.result == o.result
      && o'.device == o.device.(subscriptions := subs)
      && View(o'.trace, CallKind) == View(o.trace, CallKind)
      && View(o'.trace, NotifyKind) == View(o.trace, NotifyKind)
    ensures var o := Disconnect(d, h); var o' := Disconnect(d.(subscriptions := subs), h);
      && o'.result == o.result
      && o'.device == o.device.(subscriptions := subs)
      && View(o'.trace, CallKind) == View(o.trace, CallKind)
      && View(o'.trace, NotifyKind) == View(o.trace, NotifyKind)
  {
    var d' := d.(subscriptions := subs);
    assert Announcements(subs, true) == Announcements(d.subscriptions, true);
    assert Announcements(subs, false) == Announcements(d.subscriptions, false);
    if ConnectSucceeds(h) {
      ConnectOrder(d, h);
      ConnectOrder(d', h);
    } else {
      ConnectStopsAtFailure(d, h);
      ConnectStopsAtFailure(d', h);
    }
    if d.connection.Some? {
      DisconnectAnnounces(d, h);
      DisconnectAnnounces(d', h);
    }
  }

  /** The alias is a local label: it reads back and touches nothing else. */
  lemma AliasIsLocal(d: Device, alias: string, h: Replies, now: int)
    ensures SetAlias(d, alias).alias == Some(alias)
    ensures IsConnected(SetAlias(d, alias), h) == IsConnected(d, h)
    ensures Rssi(SetAlias(d, alias), h, now) == Rssi(d, h, now)
  {
  }
}

=== FILE: trace.dfy ===
/** What an operation does, in order: the device's own connection phases,
    the calls it makes on the handler, and the notifications it delivers. */
module Trace {
  import Handler

  /** The connection phases, in the order a connect runs them. */
  datatype Phase = EstablishConnection | DiscoverServices | DiscoverCharacteristics | DiscoverDeclarations

  /** The notification channels a subscriber can enable. */
  datatype Channel = ConnectedChannel | ServicesResolvedChannel | RssiChannel

  /** A notified value: a boolean state, or a signal strength. */
  datatype Payload = Flag(on: bool) | Level(value: int)

  datatype Step =
    | Enter(phase: Phase)
    | Call(call: Handler.Call)
    | Notified(channel: Channel, payload: Payload)
      /** The subscriber raised and the fault was swallowed. */
    | Discarded(channel: Channel)

  datatype Kind = PhaseKind | CallKind | NotifyKind | FaultKind

  function KindOf(s: Step): Kind {
    match s
    case Enter(_) => PhaseKind
    case Call(_) => CallKind
    case Notified(_, _) => NotifyKind
    case Discarded(_) => FaultKind
  }

  /** The steps of kind `k`, in order. */
  function View(t: seq<Step>, k: Kind): (v: seq<Step>)
    ensures |v| <= |t|
    ensures forall i :: 0 <= i < |v| ==> KindOf(v[i]) == k
  {
    if t == [] then []
    else View(t[..|t| - 1], k) + (if KindOf(t[|t| - 1]) == k then [t[|t| - 1]] else [])
  }

  /** Views distribute over concatenation, so the view of a trace is the
      views of its parts in order. */
  lemma {:induction false} ViewConcat(a: seq<Step>, b: seq<Step>, k: Kind)
    ensures View(a + b, k) == View(a, k) + View(b, k)
    decreases |b|
  {
    if b == [] {
      assert a + b == a;
    } else {
      var init := b[..|b| - 1];
      assert (a + b)[..|a + b| - 1] == a + init;
      ViewConcat(a, init, k);
    }
  }

  /** A slice grows by the element at its end. */
  lemma SliceGrows<T>(s: seq<T>, i: nat, j: nat)
    requires i < j <= |s|
    ensures s[i..j] == s[i..j - 1] + [s[j - 1]]
  {
  }

  /** `ViewConcat` for the phase, call and notification views at once. */
  lemma ViewsConcat(a: seq<Step>, b: seq<Step>)
    ensures View(a + b, PhaseKind) == View(a, PhaseKind) + View(b, PhaseKind)
    ensures View(a + b, CallKind) == View(a, CallKind) + View(b, CallKind)
    ensures View(a + b, NotifyKind) == View(a, NotifyKind) + View(b, NotifyKind)
  {
    ViewConcat(a, b, PhaseKind);
    ViewConcat(a, b, CallKind);
    ViewConcat(a, b, NotifyKind);
  }

  /** The view of a single step. */
  lemma ViewOfOne(s: Step, k: Kind)
    ensures View([s], k) == if KindOf(s) == k then [s] else []
  {
    assert [s][..0] == [];
  }

  /** The view of a trace made only of steps of kind `k` is the trace. */
  lemma {:induction false} ViewOfAll(t: seq<Step>, k: Kind)
    requires forall i :: 0 <= i < |t| ==> KindOf(t[i]) == k
    ensures View(t, k) == t
    decreases |t|
  {
    if t != [] {
      ViewOfAll(t[..|t| - 1], k);
    }
  }
}

=== FILE: wrappers.dfy ===
/** Optional values and handler replies, shared by the whole model. */
module Wrappers {

  /** An optional value; `None` stands for a Java `null`. */
  datatype Option<+T> = None | Some(value: T) {

    /** The wrapped value, or `default` when there is none. */
    function GetOr(default: T): T {
      match this
      case Some(v) => v
      case None => default
    }
  }

  /** The reply of one call into the dongle handler: a value, or the
      exception the call raised. */
  datatype Reply<+T> = Ok(value: T) | Failed
}
